=== FILE: README.md ===
# Ingredient detection and recipe recommendation: a Dafny model

This project models the core of a mobile cooking app and its server.

On the phone, the user either types a dish name or photographs ingredients. The app asks the server which ingredients the photos show and which recipes fit them. When the phone is offline it filters a bundled recipe list instead. A typed search from the home screen, and a photo run that gets a recommendation, each add an entry to a short recent-history list on the server; re-running an entry from the history does not add one.

The model covers six parts:

- **`Api`** (`api.dfy`) is the client's access layer, `MyApp/api.js`:
  - the text search and its three accepted response shapes;
  - `smartRecommend`, with its deduplication of detected ingredients, its online unwrapping of a single `raw_output` element, its offline dataset filter and the label of the history entry it writes;
  - the three history calls.
- **`HistoryStore`** (`history_store.dfy`) is the server's history list, `ingredient_detector/api/main.py`. It is a class whose entry list the operations replace. It is newest first, holds at most 20 entries, and skips a repeat of the newest entry.
- **`RecipeService`** (`recipe_service.dfy`) is the server's catalogue recommender, `ingredient_detector/api/recipe_service.py`:
  - the overlap score;
  - the stable sort by descending score;
  - the top three;
  - the two message answers.
- **`HistoryScreen`**, **`IngredientScreen`** and **`DetectResultScreen`** (`history_screen.dfy`, `ingredient_screen.dfy`, `detect_result_screen.dfy`) are the three React screens built on those calls. They cover:
  - relative time labels;
  - the loading and list state;
  - toggling chosen ingredients;
  - tagging results as "online" or "offline", and the guard that draws result cards;
  - the default lists, titles, time estimates and previews of the result screen.
- **`Json`** (`json.dfy`) holds the JavaScript value semantics the client code relies on:
  - truthiness and `||`;
  - `??`;
  - property reads that throw on `null`/`undefined`;
  - optional chaining;
  - `length`;
  - `SameValueZero` as used by `Set` and `includes`;
  - `String(v)` and `join`.
- **`Numerals`** (`numerals.dfy`) is the decimal text of whole numbers, as template literals print them.

The model replaces the outside world with parameters:

- **HTTP responses.** Each HTTP response body is an `Option<string>`, where `None` means `fetch` rejected.
- **`JSON.parse` and `Number#toString`.** These are the two functions of a `Runtime` value.
- **Lower-casing.** Python's `str.lower` is a function parameter of the recommender.
- **The clock.** The current time is a parameter of `AddHistory`, and the elapsed milliseconds are the input of `FormatTime`.
- **Connectivity.** The connectivity flag and the bundled dataset are inputs of `SmartRecommend`.
- **Exceptions.** A JavaScript exception that the code catches becomes the value its `catch` returns. One that escapes becomes `None`, or a `...Throws` constructor in the screens.

## Model

| member | source | states |
|---|---|---|
| Api.ResponseJson | MyApp/api.js:12 | a rejected fetch gives no JSON; otherwise the body is parsed |
| Api.SearchPrefersRecipesArray | MyApp/api.js:14 | a `recipes` array in the response is the result, even if `raw_output` is also present |
| Api.SearchUsesRawOutput | MyApp/api.js:16-22 | without a `recipes` array, a truthy `raw_output` that parses is the result; one that does not parse gives `[]` |
| Api.SearchUsesFirstElementRawOutput | MyApp/api.js:24-30 | an array response whose first element has a truthy `raw_output` yields that text parsed, or `[]` |
| Api.SearchRecipeByText | MyApp/api.js:4-36 | a failed fetch or a non-JSON body gives `[]`; any other result is `[]`, the body's own `recipes` array, or the parse of the body's own truthy `raw_output` or its first element's |
| Api.SearchResult | MyApp/api.js:14-35 | a `null` body gives `[]`; every result is `[]` or one of the three accepted shapes of that body |
| Api.SearchFallsThroughToEmpty | MyApp/api.js:14-32 | a text, number or boolean body, an object with neither a `recipes` array nor a truthy `raw_output`, and an array whose first element has no truthy `raw_output` all give `[]` |
| Api.Chars | MyApp/api.js:60 | spreading a string yields its characters, one string each, in order |
| Api.Unique | MyApp/api.js:60 | `[...new Set(xs)]` keeps every value of `xs`, adds none, has no two SameValueZero-equal elements and is no longer than `xs` |
| Api.UniqueIsFirstOccurrences | MyApp/api.js:60 | the set keeps exactly the first occurrences, in the order they occur (the independent reference definition) |
| Api.SpreadSet | MyApp/api.js:59-60 | the spread throws exactly for booleans, numbers and plain objects; an array gives its distinct elements, a string its distinct characters |
| Api.Detected | MyApp/api.js:57-60 | detection fails exactly for a failed fetch, a non-JSON or `null` body, and a detected value that is a boolean, number or object; a detected list has no two SameValueZero-equal elements |
| Api.DetectedIsDedupedList | MyApp/api.js:57-60 | a missing or null `detected_ingredients` gives `[]`; an array gives its first occurrences, with the same members |
| Api.UnwrapSingleRaw | MyApp/api.js:81-87 | a one-element list whose element has a truthy `raw_output` that parses is replaced by the parse; everything else is kept |
| Api.OnlineRecipes | MyApp/api.js:77-87 | recommending fails exactly for a failed fetch or a non-JSON or `null` body; a missing or null list gives `[]`; any other list is the one-element `raw_output` unwrap of it, so an array of other than one element is returned as it is |
| Api.OfflineFilter | MyApp/api.js:103-107 | offline results are exactly the dataset entries that share a detected ingredient; none when nothing was detected |
| Api.OfflineFilterKeepsOrder | MyApp/api.js:105-107 | filtering distributes over concatenation, so the dataset order is kept |
| Api.FallbackLabel | MyApp/api.js:91 | the history label from detected ingredients is never empty, and is "Ảnh nguyên liệu" when nothing was detected |
| Api.FallbackLabelOfNames | MyApp/api.js:91 | for non-empty names the label is the first (up to) three joined by ", " |
| Api.OnlineLabel | MyApp/api.js:91 | online, the first recipe's truthy `name` is the label, else the fallback |
| Api.OfflineLabel | MyApp/api.js:111 | offline, the first entry's `name` unless null/undefined is the label, else the fallback |
| Api.EmptyNameKeptOnlyOffline | MyApp/api.js:91-111 | an empty-string name is kept offline (`??`) but replaced online (`||`) |
| Api.SmartRecommend | MyApp/api.js:38-127 | every failure gives empty lists and writes no history; online returns the unwrapped server list, offline the filtered dataset (always an array); the detected list has no repeats; the history label is the one above |
| Api.AddHistoryForm | MyApp/api.js:129-133 | the posted type is "search" when omitted; string arguments are posted as they are |
| Api.HistoryResponse | MyApp/api.js:146-164 | the history calls return the parsed body whatever its shape, else `[]` |
| HistoryStore.Strip | ingredient_detector/api/main.py:70-71 | the stripped text is a slice `s[a..b]` with only white space before `a` and from `b` on, and it starts and ends with non-space |
| HistoryStore.StripIdempotent | ingredient_detector/api/main.py:70 | stripping twice is stripping once |
| HistoryStore.StripBlank | ingredient_detector/api/main.py:70-73 | a name strips to empty exactly when it is all white space |
| HistoryStore.NormaliseKind | ingredient_detector/api/main.py:71-75 | the stored type is "image" exactly when the stripped type is "image", else "search" |
| HistoryStore.AddSpec | ingredient_detector/api/main.py:70-95 | a blank name is ignored; only an added entry changes the list; the added entry is the stripped name, the normalised type and the time of the call, it goes first, and the list holds at most 20 |
| HistoryStore.AddKeepsWellFormed | ingredient_detector/api/main.py:65-95 | adding keeps at most 20 entries with stripped non-empty names |
| HistoryStore.AddBlankIgnored | ingredient_detector/api/main.py:72-73 | a blank name changes nothing and is answered "ignored" |
| HistoryStore.AddSkipsOnlyHeadDuplicate | ingredient_detector/api/main.py:80-81 | an add is skipped exactly when the newest entry has the same name and type; otherwise the new item is added |
| HistoryStore.AddPrepends | ingredient_detector/api/main.py:83-92 | the new entry goes first, older entries follow in order, only those past the 20th are dropped |
| HistoryStore.AddTwiceStoresOnce | ingredient_detector/api/main.py:80-92 | adding the same entry twice in a row stores it once |
| HistoryStore.LoadHistory | ingredient_detector/api/main.py:43-53 | stored content that is not a list, or a missing file, reads as the empty list |
| HistoryStore.History.constructor | ingredient_detector/api/main.py:45-46 | a server without a history file starts empty and well formed |
| HistoryStore.History.AddHistory | ingredient_detector/api/main.py:65-95 | the new list and the answer are those of `AddSpec`, and the list stays well formed |
| HistoryStore.History.GetLatestHistory | ingredient_detector/api/main.py:97-100 | the five newest entries, or all when fewer, newest first |
| HistoryStore.History.GetAllHistory | ingredient_detector/api/main.py:102-105 | the whole list |
| RecipeService.SharedNames | ingredient_detector/api/recipe_service.py:20-23 | a recipe shares no more names than it has ingredients |
| RecipeService.SharedNamesAre | ingredient_detector/api/recipe_service.py:20-23 | a shared name is exactly a detected name that some recipe ingredient becomes once lower-cased |
| RecipeService.Score | ingredient_detector/api/recipe_service.py:24 | the score lies in [0, 1], and is 0 for a recipe without ingredients |
| RecipeService.ScoreIsRatio | ingredient_detector/api/recipe_service.py:24 | for a recipe with ingredients, the score times the ingredient count is the number of shared names |
| RecipeService.ScorePositive | ingredient_detector/api/recipe_service.py:20-27 | the score is positive exactly when the recipe has ingredients and one of them (lower-cased) was detected |
| RecipeService.PositiveScoreSharesIngredient | ingredient_detector/api/recipe_service.py:23-27 | a positive score names a recipe ingredient and a detected ingredient with the same lower-cased text |
| RecipeService.ToMatch | ingredient_detector/api/recipe_service.py:28-33 | a match carries the recipe's name and ingredients, and its steps default to "" |
| RecipeService.Scored | ingredient_detector/api/recipe_service.py:18-33 | every kept entry scores in (0, 1], and there are no more entries than recipes |
| RecipeService.ScoredFromCatalogue | ingredient_detector/api/recipe_service.py:18-33 | every kept entry is the entry of a catalogue recipe, with that recipe's own positive score |
| RecipeService.ScoredIncludesEveryMatch | ingredient_detector/api/recipe_service.py:26-33 | every recipe with a positive score has its entry kept |
| RecipeService.ScoredAppend | ingredient_detector/api/recipe_service.py:19-33 | scoring distributes over concatenation of catalogues, so the entries are in catalogue order |
| RecipeService.InsertByScore | ingredient_detector/api/recipe_service.py:40 | insertion adds one element and keeps every other |
| RecipeService.InsertByScorePermutes | ingredient_detector/api/recipe_service.py:40 | insertion adds exactly the one element |
| RecipeService.InsertByScoreSorted | ingredient_detector/api/recipe_service.py:40 | insertion keeps the list sorted by descending score |
| RecipeService.InsertByScoreStable | ingredient_detector/api/recipe_service.py:40 | an inserted element goes after every element of equal score |
| RecipeService.SortByScore | ingredient_detector/api/recipe_service.py:40 | the sort has the input's length and members |
| RecipeService.SortByScoreSorted | ingredient_detector/api/recipe_service.py:40 | the sort is ordered by descending score and is a permutation |
| RecipeService.SortByScoreStable | ingredient_detector/api/recipe_service.py:40 | the sort is stable: equal scores keep their input order |
| RecipeService.TopMatches | ingredient_detector/api/recipe_service.py:40 | the top list is the first min(3, n) elements of the sorted list, all from the input |
| RecipeService.TopMatchesShape | ingredient_detector/api/recipe_service.py:40 | the top list has min(3, n) sorted elements, all from the input |
| RecipeService.TopMatchesAreBest | ingredient_detector/api/recipe_service.py:40 | every match left out scores no higher than the lowest kept |
| RecipeService.TopMatchesKeepTieOrder | ingredient_detector/api/recipe_service.py:40 | among kept matches of equal score, the input order is kept as a prefix |
| RecipeService.TopMatchesFromCatalogue | ingredient_detector/api/recipe_service.py:18-42 | every recommended match is a catalogue recipe carrying its own score, which lies in (0, 1] |
| RecipeService.RecommendRecipe | ingredient_detector/api/recipe_service.py:10-42 | no ingredients and no match give the two messages; otherwise 1 to 3 matches, sorted by descending score, the top of the scored catalogue |
| HistoryScreen.FormatTime | MyApp/app/_screens/HistoryScreen.tsx:48-60 | under a minute is "Vừa xong"; under an hour, 1-59 whole minutes; under a day, 1-23 whole hours; else whole days; an invalid date prints "NaN ngày trước" |
| HistoryScreen.FormatTimeDistinguishesMinutes | MyApp/app/_screens/HistoryScreen.tsx:52-57 | two elapsed times under an hour print the same label exactly when they have the same count of whole minutes |
| HistoryScreen.HistoryView.constructor | MyApp/app/_screens/HistoryScreen.tsx:21-22 | the screen starts with an empty list, not loading |
| HistoryScreen.HistoryView.FetchFullHistory | MyApp/app/_screens/HistoryScreen.tsx:28-38 | afterwards the screen is not loading and shows the history call's result |
| Numerals.Decimal | MyApp/app/_screens/HistoryScreen.tsx:57-59 | a count prints as non-empty decimal digits without a leading zero |
| Numerals.DecimalRoundTrip | MyApp/app/_screens/HistoryScreen.tsx:57-59 | the printed digits read back as the count |
| IngredientScreen.Without | MyApp/app/_screens/IngredientScreen.tsx:60 | filtering out a value keeps every other element and drops every copy of it |
| IngredientScreen.Toggle | MyApp/app/_screens/IngredientScreen.tsx:57-62 | an empty name changes nothing; a chosen name is removed, any other is appended; other names keep their membership |
| IngredientScreen.ToggleTwiceRestores | MyApp/app/_screens/IngredientScreen.tsx:57-62 | choosing an unchosen name and then toggling it again gives back the list |
| IngredientScreen.ToggleKeepsOthersInOrder | MyApp/app/_screens/IngredientScreen.tsx:57-62 | with the toggled name set aside, the list is the same before and after |
| IngredientScreen.Tag | MyApp/app/_screens/IngredientScreen.tsx:89-93 | a result is tagged "online" exactly when its list is a non-empty array or string |
| IngredientScreen.CardsRendered | MyApp/app/_screens/IngredientScreen.tsx:100-146 | cards are drawn only for "offline" results holding an array, one per item; other non-null lists make the render throw |
| IngredientScreen.NoCardIsEverRendered | MyApp/app/_screens/IngredientScreen.tsx:89-146 | a tagged result never draws a card: either zero cards or a render error; an array list always draws zero |
| IngredientScreen.IngredientView.constructor | MyApp/app/_screens/IngredientScreen.tsx:52-53 | nothing is chosen and there is no result |
| IngredientScreen.IngredientView.ToggleIngredient | MyApp/app/_screens/IngredientScreen.tsx:57-62 | the chosen list becomes its toggle, the result is untouched |
| IngredientScreen.IngredientView.FetchRecipes | MyApp/app/_screens/IngredientScreen.tsx:84-96 | no images: nothing happens; otherwise the recommendation is the empty one when detection fails, the server's list online (empty when recommending fails) and the filtered dataset offline; it is stored tagged and its detected ingredients become the chosen ones (unchanged when its list is null); offline, no card is drawn |
| DetectResultScreen.ScreenData | MyApp/app/_screens/DetectResultScreen.tsx:19 | the data is the route's truthy params, else `{}` |
| DetectResultScreen.ListOf | MyApp/app/_screens/DetectResultScreen.tsx:20-21 | a missing, null or undefined list reads as `[]`; any other value is read as it is |
| DetectResultScreen.ListingOf | MyApp/app/_screens/DetectResultScreen.tsx:57-61 | a zero length shows the "none found" text; a non-empty array lists its items; it throws exactly for a value of no zero length that is not an array |
| DetectResultScreen.IngredientSection | MyApp/app/_screens/DetectResultScreen.tsx:20-67 | a missing, null, undefined or empty list shows "Không nhận diện được nguyên liệu."; exactly a non-empty array lists its items; any other value except `""` throws |
| DetectResultScreen.RecipeSection | MyApp/app/_screens/DetectResultScreen.tsx:21-80 | a missing, null, undefined or empty list shows "Không tìm thấy món ăn phù hợp."; exactly a non-empty array lists its recipes; any other value except `""` throws |
| DetectResultScreen.MissingListsShowNoneFound | MyApp/app/_screens/DetectResultScreen.tsx:19-21 | without the two lists both sections show their "none found" texts |
| DetectResultScreen.Title | MyApp/app/_screens/DetectResultScreen.tsx:93 | the title, else the name, else "Không có tên món ăn"; always truthy |
| DetectResultScreen.EstimatedMinutes | MyApp/app/_screens/DetectResultScreen.tsx:101 | five minutes per step when there are steps, else 20 |
| DetectResultScreen.TimeText | MyApp/app/_screens/DetectResultScreen.tsx:97-101 | the row is shown exactly when a cooking time, time or steps is truthy; the first time set wins, else the step estimate |
| DetectResultScreen.TimeFromStepCount | MyApp/app/_screens/DetectResultScreen.tsx:97-101 | with no time given, the row's digits read back as five times the number of steps |
| DetectResultScreen.IngredientPreview | MyApp/app/_screens/DetectResultScreen.tsx:107-111 | a non-empty array previews its first (up to) three entries and flags more than three; a non-empty string throws |
| DetectResultScreen.PreviewLine | MyApp/app/_screens/DetectResultScreen.tsx:110-111 | the line ends in " • ..." when more follow; with nothing shown it is that suffix or empty; one text shown is itself, then the suffix |
| DetectResultScreen.PreviewLineOfNames | MyApp/app/_screens/DetectResultScreen.tsx:110-111 | for names, the line is the names joined by " • ", and it is never blank when a name is non-empty, more follow or two are shown |
| DetectResultScreen.StepPreview | MyApp/app/_screens/DetectResultScreen.tsx:117-133 | a non-empty step array shows its first (up to) two steps numbered from 1, and a note exactly when there are more than two |
| DetectResultScreen.MoreStepsText | MyApp/app/_screens/DetectResultScreen.tsx:131-135 | the note is "+", then decimal digits that read back as the count, then " bước nữa" |
| DetectResultScreen.StepPreviewAccountsForEveryStep | MyApp/app/_screens/DetectResultScreen.tsx:119-133 | the note starts with "+" and ends with " bước nữa", and the steps shown plus the count in the note equal the number of steps |
| DetectResultScreen.Card | MyApp/app/_screens/DetectResultScreen.tsx:80-137 | a card exists exactly for recipes that are not null or undefined; it shows the recipe's title, time row, ingredient preview and step preview; its title is truthy and shown steps imply a shown time row |

## Left out

- HTTP transport, `FormData`, the network-state query and the server's `/search`, `/predict` and `/recommend_llm` handlers are outside the model. Their outcomes are inputs: a response body, or a rejected fetch.
- `JSON.parse`, `Number#toString` and Python's `str.lower` are parameters. Their behaviour is not modelled.
- `addHistory`'s network effect is not modelled. `SmartRecommend` returns the label it would post, and `AddHistoryForm` the two fields.
- File persistence of the history list and its lock are not modelled. The list is a field of `HistoryStore.History`, and the history file is `ingredient_detector/api/main.py`'s own concern.
- The server's file may hold entries that are not objects, which would make the `.get` on the newest entry raise. The model's entries are always records.
- HistoryStore.History.AddHistory: the timestamp is a parameter. `datetime.now()` and its formatting are not modelled.
- RecipeService.RecommendRecipe: does not model `round(score, 2)`. Scores are exact ratios, so two scores that differ but round to the same value are ordered by the exact ratio here, while the source keeps them in catalogue order.
- The recipe catalogue file read at import time is a parameter of `RecommendRecipe`.
- HistoryScreen.FormatTime: takes the elapsed milliseconds. Date parsing and the clock are left out. Floating-point division rounding is not modelled; it only matters for elapsed times far beyond any real date.
- HistoryScreen.HistoryView.FetchFullHistory: has no error path. `getAllHistory` never rejects, so the `catch` at line 33 cannot run.
- `length` on a plain object is taken to be missing. An object with its own `length` key is not modelled.
- String lengths count code points, while JavaScript counts UTF-16 units.
- Api.SmartRecommend: requires every entry of the bundled dataset to have an `ingredients` array, and does not model other entries. In the source, a missing, null or undefined `ingredients` throws on `includes` once some ingredient was detected; a string `ingredients` matches by substring (`String.prototype.includes`); and when nothing was detected, `some` over the empty list reads no entry, so nothing throws. The bundled `recipes.json` is not part of this model.
- Numerals.Decimal: prints integers as JavaScript does below 10^21. Larger counts, which JavaScript prints in exponent form, are not modelled.
- React rendering of non-text values is not modelled. This covers an object as a title or step, and a falsy `0` left in the element tree by `&&`. Navigation, saving and styling are also left out.
- The LLM services, `detect_service`, `search_service_llm` and every other screen are not part of this model.

=== FILE: api.dfy ===
/** The client's remote-access layer (MyApp/api.js): text search, photo
    recommendation with its offline fallback, and the history calls.

    Transport is replaced by its outcome: each HTTP body is an
    `Option<string>`, `None` when `fetch` rejected; `res.json()` is the
    runtime's `JSON.parse` applied to the body text. Every `catch` in the
    source becomes the empty result it returns. */
module Api {
  import opened Wrappers
  import opened Json
  import opened Numerals

  /** The record `smartRecommend` resolves to. */
  datatype Recommendation = Recommendation(detected: seq<Value>, recommended: Value)

  const EmptyRecommendation: Recommendation := Recommendation([], Arr([]))

  /** The history label used when there is neither a recipe name nor a
      detected ingredient to show. */
  const ImageLabel: string := "Ảnh nguyên liệu"

  /** `await res.json()`: `None` when the fetch rejected or the body is not JSON. */
  function ResponseJson(body: Option<string>, rt: Runtime): (r: Option<Value>)
    ensures body.None? ==> r.None?
    ensures body.Some? ==> r == rt.parse(Str(body.value))
  {
    match body
    case None => None
    case Some(text) => rt.parse(Str(text))
  }

  // ---------------------------------------------------------------------
  // searchRecipeByText

  /** The results `searchRecipeByText` can accept from a parsed body: the
      body's own `recipes` array, the parse of its own truthy `raw_output`,
      the parse of its first element's truthy `raw_output`, or `[]`. */
  predicate AcceptedShape(json: Value, r: Value, rt: Runtime) {
    || r == Arr([])
    || (Get(json, "recipes") == Some(r) && r.Arr?)
    || (!Nullish(json) && Truthy(Get(json, "raw_output").value) && rt.parse(Get(json, "raw_output").value) == Some(r))
    || (json.Arr? && Truthy(OptGet(First(json), "raw_output")) && rt.parse(OptGet(First(json), "raw_output")) == Some(r))
  }

  /** `searchRecipeByText`: reduce the `/search` response to a recipe list.
      A failed fetch or a body that is not JSON gives `[]`; it never fails. */
  function SearchRecipeByText(body: Option<string>, rt: Runtime): (r: Value)
    ensures ResponseJson(body, rt).None? ==> r == Arr([])
    ensures ResponseJson(body, rt).Some? ==> AcceptedShape(ResponseJson(body, rt).value, r, rt)
  {
    match ResponseJson(body, rt)
    case None => Arr([])
    case Some(json) => SearchResult(json, rt)
  }

  /** The shape checks of `searchRecipeByText`, in their order, on a parsed body. */
  function SearchResult(json: Value, rt: Runtime): (r: Value)
    ensures Nullish(json) ==> r == Arr([])
    ensures AcceptedShape(json, r, rt)
  {
    if Nullish(json) then
      Arr([])  // reading `json.recipes` throws
    else
      var recipes := Get(json, "recipes").value;
      var raw := Get(json, "raw_output").value;
      if Truthy(recipes) && recipes.Arr? then recipes
      else if Truthy(raw) && rt.parse(raw).Some? then rt.parse(raw).value
      else if json.Arr? && Truthy(OptGet(First(json), "raw_output"))
              && rt.parse(OptGet(First(json), "raw_output")).Some? then
        rt.parse(OptGet(First(json), "raw_output")).value
      else Arr([])
  }

  /** A `recipes` array wins, even when `raw_output` is present as well. */
  lemma SearchPrefersRecipesArray(body: string, rt: Runtime, json: Value)
    requires rt.parse(Str(body)) == Some(json)
    requires json.Obj? && "recipes" in json.fields && json.fields["recipes"].Arr?
    ensures SearchRecipeByText(Some(body), rt) == json.fields["recipes"]
  {
  }

  /** Without a `recipes` array, a truthy `raw_output` that parses is the
      result; one that does not parse falls through to the array check. */
  lemma SearchUsesRawOutput(body: string, rt: Runtime, json: Value)
    requires rt.parse(Str(body)) == Some(json)
    requires json.Obj? && !("recipes" in json.fields && json.fields["recipes"].Arr?)
    requires "raw_output" in json.fields && Truthy(json.fields["raw_output"])
    ensures rt.parse(json.fields["raw_output"]).Some? ==>
              SearchRecipeByText(Some(body), rt) == rt.parse(json.fields["raw_output"]).value
    ensures rt.parse(json.fields["raw_output"]).None? ==> SearchRecipeByText(Some(body), rt) == Arr([])
  {
  }

  /** An array body whose first element has a truthy `raw_output` yields that
      text parsed, or `[]` when it does not parse. */
  lemma SearchUsesFirstElementRawOutput(body: string, rt: Runtime, items: seq<Value>)
    requires rt.parse(Str(body)) == Some(Arr(items))
    requires items != [] && Truthy(OptGet(items[0], "raw_output"))
    ensures rt.parse(OptGet(items[0], "raw_output")).Some? ==>
              SearchRecipeByText(Some(body), rt) == rt.parse(OptGet(items[0], "raw_output")).value
    ensures rt.parse(OptGet(items[0], "raw_output")).None? ==> SearchRecipeByText(Some(body), rt) == Arr([])
  {
  }

  /** A body that matches none of the shapes gives `[]`: a text, number or
      boolean body, an object without a `recipes` array or a truthy
      `raw_output`, and an array whose first element has no truthy
      `raw_output`. */
  lemma SearchFallsThroughToEmpty(body: string, rt: Runtime, json: Value)
    requires rt.parse(Str(body)) == Some(json)
    ensures json.Str? || json.Num? || json.Bool? ==> SearchRecipeByText(Some(body), rt) == Arr([])
    ensures json.Obj? && !("recipes" in json.fields && json.fields["recipes"].Arr?)
            && !("raw_output" in json.fields && Truthy(json.fields["raw_output"]))
            ==> SearchRecipeByText(Some(body), rt) == Arr([])
    ensures json.Arr? && !Truthy(OptGet(First(json), "raw_output")) ==> SearchRecipeByText(Some(body), rt) == Arr([])
  {
  }

  // ---------------------------------------------------------------------
  // smartRecommend

  /** The characters of a text, one string each, as iterating a string yields them. */
  function Chars(s: string): (r: seq<Value>)
    ensures |r| == |s|
    ensures forall i :: 0 <= i < |s| ==> r[i] == Str([s[i]])
  {
    seq(|s|, i requires 0 <= i < |s| => Str([s[i]]))
  }

  /** `[...new Set(xs)]` over the elements of an array: each value kept at
      its first occurrence. */
  function Unique(xs: seq<Value>): (r: seq<Value>)
    ensures forall x :: x in r ==> x in xs
    ensures forall x :: x in xs ==> x in r
    ensures forall i, j :: 0 <= i < j < |r| ==> !SameValueZero(r[i], r[j])
    ensures |r| <= |xs|
  {
    if xs == [] then []
    else
      var r := Unique(xs[..|xs| - 1]);
      var x := xs[|xs| - 1];
      assert forall y :: y in xs[..|xs| - 1] ==> y in xs;
      if Includes(r, x) then r else r + [x]
  }

  /** Whether `xs[k]` is the first occurrence of its value. */
  predicate IsFirstOccurrence(xs: seq<Value>, k: nat)
    requires k < |xs|
  {
    forall j :: 0 <= j < k ==> !SameValueZero(xs[j], xs[k])
  }

  /** The elements at first-occurrence positions, in position order. */
  function FirstOccurrences(xs: seq<Value>): seq<Value> {
    if xs == [] then []
    else FirstOccurrences(xs[..|xs| - 1]) + (if IsFirstOccurrence(xs, |xs| - 1) then [xs[|xs| - 1]] else [])
  }

  /** The set built from an array keeps exactly the first occurrences, in
      the order they occur. */
  lemma {:induction false} UniqueIsFirstOccurrences(xs: seq<Value>)
    ensures Unique(xs) == FirstOccurrences(xs)
  {
    if xs != [] {
      var init, x := xs[..|xs| - 1], xs[|xs| - 1];
      UniqueIsFirstOccurrences(init);
      var r := Unique(init);
      if Includes(r, x) {
        var y :| y in r && SameValueZero(y, x);
        var j :| 0 <= j < |init| && init[j] == y;
        assert xs[j] == y;
      } else {
        forall j | 0 <= j < |xs| - 1 ensures !SameValueZero(xs[j], x) {
          assert xs[j] == init[j] && init[j] in init;
        }
      }
    }
  }

  /** `[...new Set(v)]`: an array gives its distinct elements, a string its
      distinct characters, `null` and `undefined` give nothing; any other
      value is not iterable and the constructor throws (`None`). */
  function SpreadSet(v: Value): (r: Option<seq<Value>>)
    ensures r.None? <==> v.Bool? || v.Num? || v.Obj?
    ensures v.Arr? ==> r == Some(Unique(v.items))
    ensures v.Str? ==> r == Some(Unique(Chars(v.s)))
  {
    match v
    case Arr(items) => Some(Unique(items))
    case Str(s) => Some(Unique(Chars(s)))
    case Undefined => Some([])
    case Null => Some([])
    case _ => None
  }

  /** Lines 57-60: the predict response's `detected_ingredients ?? []`,
      deduplicated; `None` when a step throws. */
  function Detected(predictBody: Option<string>, rt: Runtime): (r: Option<seq<Value>>)
    ensures r.None? <==>
              || ResponseJson(predictBody, rt).None?
              || Nullish(ResponseJson(predictBody, rt).value)
              || (var list := Get(ResponseJson(predictBody, rt).value, "detected_ingredients").value;
                  list.Bool? || list.Num? || list.Obj?)
    ensures r.Some? ==> forall i, j :: 0 <= i < j < |r.value| ==> !SameValueZero(r.value[i], r.value[j])
  {
    match ResponseJson(predictBody, rt)
    case None => None
    case Some(json) =>
      match Get(json, "detected_ingredients")
      case None => None
      case Some(list) => SpreadSet(Coalesce(list, Arr([])))
  }

  /** A detected list is the response's list without repeats: nothing lost,
      nothing added, first occurrences in order, and a missing list is empty. */
  lemma DetectedIsDedupedList(predictBody: string, rt: Runtime, json: Value)
    requires rt.parse(Str(predictBody)) == Some(json)
    requires json.Obj?
    ensures "detected_ingredients" !in json.fields ==> Detected(Some(predictBody), rt) == Some([])
    ensures "detected_ingredients" in json.fields && Nullish(json.fields["detected_ingredients"]) ==>
              Detected(Some(predictBody), rt) == Some([])
    ensures "detected_ingredients" in json.fields && json.fields["detected_ingredients"].Arr? ==>
              var xs := json.fields["detected_ingredients"].items;
              && Detected(Some(predictBody), rt) == Some(FirstOccurrences(xs))
              && (forall x :: x in xs <==> x in FirstOccurrences(xs))
  {
    if "detected_ingredients" in json.fields && json.fields["detected_ingredients"].Arr? {
      UniqueIsFirstOccurrences(json.fields["detected_ingredients"].items);
    }
  }

  /** Lines 81-87: a one-element list whose element has a truthy `raw_output`
      is replaced by that text parsed, when it parses. */
  function UnwrapSingleRaw(recipes: Value, rt: Runtime): (r: Value)
    requires !Nullish(recipes)
    ensures recipes.Arr? && |recipes.items| == 1 && Truthy(OptGet(recipes.items[0], "raw_output"))
            && rt.parse(OptGet(recipes.items[0], "raw_output")).Some?
            ==> r == rt.parse(OptGet(recipes.items[0], "raw_output")).value
    ensures !(recipes.Arr? && |recipes.items| == 1 && Truthy(OptGet(recipes.items[0], "raw_output"))
              && rt.parse(OptGet(recipes.items[0], "raw_output")).Some?)
            ==> r == recipes
  {
    if Length(recipes) == Some(1) && Truthy(OptGet(First(recipes), "raw_output")) then
      rt.parse(OptGet(First(recipes), "raw_output")).GetOr(recipes)
    else recipes
  }

  /** Lines 77-87: the `/recommend_llm` response's recipe list, unwrapped;
      `None` when a step throws. */
  function OnlineRecipes(recommendBody: Option<string>, rt: Runtime): (r: Option<Value>)
    ensures r.None? <==> ResponseJson(recommendBody, rt).None? || Nullish(ResponseJson(recommendBody, rt).value)
    ensures r.Some? ==>
              var list := Get(ResponseJson(recommendBody, rt).value, "recommended_recipes").value;
              && (Nullish(list) ==> r.value == Arr([]))
              && (list.Arr? && |list.items| != 1 ==> r.value == list)
              && (!Nullish(list) ==> r.value == UnwrapSingleRaw(list, rt))
  {
    match ResponseJson(recommendBody, rt)
    case None => None
    case Some(out) =>
      match Get(out, "recommended_recipes")
      case None => None
      case Some(list) => Some(UnwrapSingleRaw(Coalesce(list, Arr([])), rt))
  }

  /** The bundled dataset's entries are objects with an `ingredients` array. */
  predicate HasIngredientList(entry: Value) {
    entry.Obj? && "ingredients" in entry.fields && entry.fields["ingredients"].Arr?
  }

  /** Whether some detected ingredient occurs in the entry's ingredient
      list, compared as `includes` compares. */
  predicate SharesIngredient(entry: Value, detected: seq<Value>)
    requires HasIngredientList(entry)
  {
    exists i | i in detected :: Includes(entry.fields["ingredients"].items, i)
  }

  /** Lines 105-107: the dataset entries that share an ingredient with the
      detected list. */
  function OfflineFilter(dataset: seq<Value>, detected: seq<Value>): (r: seq<Value>)
    requires forall k :: 0 <= k < |dataset| ==> HasIngredientList(dataset[k])
    ensures forall x :: x in r ==> x in dataset && HasIngredientList(x) && SharesIngredient(x, detected)
    ensures forall k :: 0 <= k < |dataset| && SharesIngredient(dataset[k], detected) ==> dataset[k] in r
    ensures detected == [] ==> r == []
    ensures |r| <= |dataset|
  {
    if dataset == [] then []
    else
      (if SharesIngredient(dataset[0], detected) then [dataset[0]] else [])
      + OfflineFilter(dataset[1..], detected)
  }

  /** Filtering keeps dataset order: it distributes over concatenation. */
  lemma {:induction false} OfflineFilterKeepsOrder(a: seq<Value>, b: seq<Value>, detected: seq<Value>)
    requires forall k :: 0 <= k < |a| ==> HasIngredientList(a[k])
    requires forall k :: 0 <= k < |b| ==> HasIngredientList(b[k])
    ensures OfflineFilter(a + b, detected) == OfflineFilter(a, detected) + OfflineFilter(b, detected)
  {
    if a == [] {
      assert a + b == b;
    } else {
      assert (a + b)[0] == a[0] && (a + b)[1..] == a[1..] + b;
      OfflineFilterKeepsOrder(a[1..], b, detected);
    }
  }

  /** The history label of last resort: the first three detected
      ingredients joined by ", ", or the image label when that text is
      empty. */
  function FallbackLabel(detected: seq<Value>, rt: Runtime): (r: Value)
    ensures r.Str? && r.s != ""
    ensures detected == [] ==> r == Str(ImageLabel)
  {
    var joined := Join(detected[..Min(3, |detected|)], ", ", rt);
    if joined != "" then Str(joined) else Str(ImageLabel)
  }

  /** With detected names that are non-empty texts, the fallback label is the
      first (up to) three of them separated by ", ". */
  lemma FallbackLabelOfNames(names: seq<string>, rt: Runtime)
    requires names != [] && forall i :: 0 <= i < |names| ==> names[i] != ""
    ensures var n := Min(3, |names|);
            FallbackLabel(seq(|names|, i requires 0 <= i < |names| => Str(names[i])), rt)
              == Str(JoinTexts(names[..n], ", "))
  {
    var detected := seq(|names|, i requires 0 <= i < |names| => Str(names[i]));
    var n := Min(3, |names|);
    var parts := seq(n, i requires 0 <= i < n => if Nullish(detected[..n][i]) then "" else ToText(detected[..n][i], rt));
    assert parts == names[..n];
    assert Join(detected[..n], ", ", rt) == JoinTexts(names[..n], ", ");
    JoinTextsEmpty(names[..n], ", ");
  }

  /** Line 91: online, the first recipe's truthy `name`, else the fallback. */
  function OnlineLabel(recipes: Value, detected: seq<Value>, rt: Runtime): (r: Value)
    ensures recipes.Arr? && recipes.items != [] && Truthy(OptGet(recipes.items[0], "name"))
            ==> r == OptGet(recipes.items[0], "name")
    ensures !(recipes.Arr? && recipes.items != [] && Truthy(OptGet(recipes.items[0], "name")))
            ==> r == FallbackLabel(detected, rt)
  {
    if recipes.Arr? && Truthy(OptGet(First(recipes), "name")) then OptGet(First(recipes), "name")
    else FallbackLabel(detected, rt)
  }

  /** Line 111: offline, the first entry's `name` unless null or undefined,
      else the fallback. */
  function OfflineLabel(filtered: seq<Value>, detected: seq<Value>, rt: Runtime): (r: Value)
    ensures filtered != [] && !Nullish(OptGet(filtered[0], "name")) ==> r == OptGet(filtered[0], "name")
    ensures !(filtered != [] && !Nullish(OptGet(filtered[0], "name"))) ==> r == FallbackLabel(detected, rt)
  {
    Coalesce(OptGet(First(Arr(filtered)), "name"), FallbackLabel(detected, rt))
  }

  /** The labels differ on a name that is present but falsy (an empty
      text): offline keeps it, online falls back. */
  lemma EmptyNameKeptOnlyOffline(entry: Value, detected: seq<Value>, rt: Runtime)
    requires entry.Obj? && "name" in entry.fields && entry.fields["name"] == Str("")
    ensures OfflineLabel([entry], detected, rt) == Str("")
    ensures OnlineLabel(Arr([entry]), detected, rt) == FallbackLabel(detected, rt)
    ensures OnlineLabel(Arr([entry]), detected, rt) != Str("")
  {
  }

  /** `smartRecommend`: detect, then recommend online or filter the bundled
      dataset offline. Also returns the label of the `image` history entry it
      writes (`None` when the flow failed before writing one). */
  method SmartRecommend(connected: bool, predictBody: Option<string>, recommendBody: Option<string>,
                        dataset: seq<Value>, rt: Runtime)
    returns (r: Recommendation, historyLabel: Option<Value>)
    requires forall k :: 0 <= k < |dataset| ==> HasIngredientList(dataset[k])
    ensures historyLabel.None? <==> r == EmptyRecommendation && (Detected(predictBody, rt).None? || (connected && OnlineRecipes(recommendBody, rt).None?))
    ensures Detected(predictBody, rt).None? ==> r == EmptyRecommendation
    ensures Detected(predictBody, rt).Some? ==>
              var detected := Detected(predictBody, rt).value;
              && (connected && OnlineRecipes(recommendBody, rt).None? ==> r == EmptyRecommendation)
              && (connected && OnlineRecipes(recommendBody, rt).Some? ==>
                    var recipes := OnlineRecipes(recommendBody, rt).value;
                    r == Recommendation(detected, recipes) && historyLabel == Some(OnlineLabel(recipes, detected, rt)))
              && (!connected ==>
                    var filtered := OfflineFilter(dataset, detected);
                    r == Recommendation(detected, Arr(filtered)) && historyLabel == Some(OfflineLabel(filtered, detected, rt)))
    ensures forall i, j :: 0 <= i < j < |r.detected| ==> !SameValueZero(r.detected[i], r.detected[j])
    ensures !connected ==> r.recommended.Arr?
  {
    var jsonPredict := ResponseJson(predictBody, rt);
    if jsonPredict.None? {
      return EmptyRecommendation, None;
    }
    var detectedList := Get(jsonPredict.value, "detected_ingredients");
    if detectedList.None? {
      return EmptyRecommendation, None;
    }
    var allIngredients := SpreadSet(Coalesce(detectedList.value, Arr([])));
    if allIngredients.None? {
      return EmptyRecommendation, None;
    }
    var detected := allIngredients.value;
    assert Some(detected) == Detected(predictBody, rt);
    if connected {
      var out := ResponseJson(recommendBody, rt);
      if out.None? {
        return EmptyRecommendation, None;
      }
      var list := Get(out.value, "recommended_recipes");
      if list.None? {
        return EmptyRecommendation, None;
      }
      var recipes := Coalesce(list.value, Arr([]));
      recipes := UnwrapSingleRaw(recipes, rt);
      historyLabel := Some(OnlineLabel(recipes, detected, rt));
      r := Recommendation(detected, recipes);
      return;
    }
    var filtered := OfflineFilter(dataset, detected);
    historyLabel := Some(OfflineLabel(filtered, detected, rt));
    r := Recommendation(detected, Arr(filtered));
  }

  // ---------------------------------------------------------------------
  // addHistory, getLatestHistory, getAllHistory

  /** The two form fields `addHistory` posts: the name's text and the type,
      `"search"` when the caller leaves it out. The response is ignored and
      every failure is swallowed, so nothing is returned. */
  function AddHistoryForm(recipeName: Value, histType: Value, rt: Runtime): (form: (string, string))
    ensures histType == Undefined ==> form.1 == "search"
    ensures histType.Str? ==> form.1 == histType.s
    ensures recipeName.Str? ==> form.0 == recipeName.s
  {
    (ToText(recipeName, rt), if histType == Undefined then "search" else ToText(histType, rt))
  }

  /** `getLatestHistory` and `getAllHistory` differ only in the URL: the
      parsed body as it is (whatever its shape), or `[]` on any failure. */
  function HistoryResponse(body: Option<string>, rt: Runtime): (r: Value)
    ensures ResponseJson(body, rt).Some? ==> r == ResponseJson(body, rt).value
    ensures ResponseJson(body, rt).None? ==> r == Arr([])
  {
    ResponseJson(body, rt).GetOr(Arr([]))
  }
}

=== FILE: detect_result_screen.dfy ===
/** The detection result screen (MyApp/app/_screens/DetectResultScreen.tsx):
    what it shows for the parameters it is opened with. Navigation and
    styling are outside the model; each part of the screen is a value
    computed from the route. */
module DetectResultScreen {
  import opened Wrappers
  import opened Json
  import opened Numerals

  const NoIngredientsText: string := "Không nhận diện được nguyên liệu."
  const NoDishText: string := "Không tìm thấy món ăn phù hợp."
  const NoTitle: string := "Không có tên món ăn"
  const DefaultMinutes: nat := 20
  const MinutesPerStep: nat := 5
  const IngredientPreviewCount: nat := 3
  const StepPreviewCount: nat := 2
  const IngredientSeparator: string := " • "
  const MoreIngredients: string := " • ..."
  const MinutesSuffix: string := " phút"
  const MoreStepsSuffix: string := " bước nữa"

  /** Line 19: `route?.params || {}`; the data read is always an object
      or another truthy value. */
  function ScreenData(route: Value): (data: Value)
    ensures Truthy(data)
    ensures Truthy(OptGet(route, "params")) ==> data == OptGet(route, "params")
    ensures !Truthy(OptGet(route, "params")) ==> data == Obj(map[])
  {
    Or(OptGet(route, "params"), Obj(map[]))
  }

  /** Lines 20-21: a list of the data, `[]` when missing, null or undefined. */
  function ListOf(route: Value, key: string): (list: Value)
    ensures !Nullish(list)
    ensures var field := Get(ScreenData(route), key).value;
            && (Nullish(field) ==> list == Arr([]))
            && (!Nullish(field) ==> list == field)
  {
    Coalesce(Get(ScreenData(route), key).value, Arr([]))
  }

  /** How a list section renders: its "none found" text, its items, or a
      `TypeError` (a value with no `map` method). */
  datatype Listing = NoneFound(text: string) | Listed(items: seq<Value>) | ListThrows

  /** Lines 57-61 and 77-80: a length of zero shows the "none found" text;
      any other value is mapped over, which only an array allows. */
  function ListingOf(list: Value, noneFound: string): (r: Listing)
    ensures r == NoneFound(noneFound) <==> Length(list) == Some(0)
    ensures r.Listed? <==> list.Arr? && list.items != []
    ensures r.Listed? ==> r.items == list.items
    ensures r.ListThrows? <==> Length(list) != Some(0) && !list.Arr?
  {
    if Length(list) == Some(0) then NoneFound(noneFound)
    else if list.Arr? then Listed(list.items)
    else ListThrows
  }

  /** The detected ingredients section: "none found" for a missing, null,
      undefined or empty list, the items of a non-empty array, and a
      `TypeError` for any other value except the empty text. */
  function IngredientSection(route: Value): (r: Listing)
    ensures var field := Get(ScreenData(route), "detected_ingredients").value;
            && (Nullish(field) || field == Arr([]) ==> r == NoneFound(NoIngredientsText))
            && (r.Listed? <==> field.Arr? && field.items != [])
            && (r.Listed? ==> r == Listed(field.items))
            && (r.ListThrows? <==> !Nullish(field) && !field.Arr? && field != Str(""))
  {
    ListingOf(ListOf(route, "detected_ingredients"), NoIngredientsText)
  }

  /** The recommended dishes section, read the same way from its own list. */
  function RecipeSection(route: Value): (r: Listing)
    ensures var field := Get(ScreenData(route), "recommended_recipes").value;
            && (Nullish(field) || field == Arr([]) ==> r == NoneFound(NoDishText))
            && (r.Listed? <==> field.Arr? && field.items != [])
            && (r.Listed? ==> r == Listed(field.items))
            && (r.ListThrows? <==> !Nullish(field) && !field.Arr? && field != Str(""))
  {
    ListingOf(ListOf(route, "recommended_recipes"), NoDishText)
  }

  /** Without parameters, or without the two lists, the screen shows both
      "none found" texts. */
  lemma MissingListsShowNoneFound(route: Value)
    requires var data := ScreenData(route);
             !(data.Obj? && "detected_ingredients" in data.fields && !Nullish(data.fields["detected_ingredients"]))
             && !(data.Obj? && "recommended_recipes" in data.fields && !Nullish(data.fields["recommended_recipes"]))
    ensures IngredientSection(route) == NoneFound(NoIngredientsText)
    ensures RecipeSection(route) == NoneFound(NoDishText)
  {
  }

  /** `recipe.key` on a recipe that is not null or undefined. */
  function Field(recipe: Value, key: string): Value
    requires !Nullish(recipe)
  {
    Get(recipe, key).value
  }

  /** Line 93: the title, else the name, else the "no name" text; a card
      always has a non-empty title. */
  function Title(recipe: Value): (title: Value)
    requires !Nullish(recipe)
    ensures Truthy(title)
    ensures Truthy(Field(recipe, "title")) ==> title == Field(recipe, "title")
    ensures !Truthy(Field(recipe, "title")) && Truthy(Field(recipe, "name")) ==> title == Field(recipe, "name")
    ensures !Truthy(Field(recipe, "title")) && !Truthy(Field(recipe, "name")) ==> title == Str(NoTitle)
  {
    Or(Field(recipe, "title"), Or(Field(recipe, "name"), Str(NoTitle)))
  }

  /** Line 101, `recipe.steps?.length * 5 || 20`: five minutes a step when
      there are steps; no steps, no length or a `NaN` product give 20. */
  function EstimatedMinutes(steps: Value): (m: nat)
    ensures Length(steps).Some? && Length(steps).value > 0 ==> m == MinutesPerStep * Length(steps).value
    ensures !(Length(steps).Some? && Length(steps).value > 0) ==> m == DefaultMinutes
    ensures m > 0
  {
    match Length(steps)
    case Some(n) => if n * MinutesPerStep != 0 then n * MinutesPerStep else DefaultMinutes
    case None => DefaultMinutes
  }

  /** Lines 97-101: the time row, shown when the recipe has a cooking time,
      a time or steps; it prints the first of the two times that is set,
      else an estimate from the number of steps. */
  function TimeText(recipe: Value): (r: Option<Value>)
    requires !Nullish(recipe)
    ensures r.Some? <==> Truthy(Field(recipe, "cooking_time")) || Truthy(Field(recipe, "time")) || Truthy(Field(recipe, "steps"))
    ensures r.Some? ==> Truthy(r.value)
    ensures r.Some? && Truthy(Field(recipe, "cooking_time")) ==> r.value == Field(recipe, "cooking_time")
    ensures r.Some? && !Truthy(Field(recipe, "cooking_time")) && Truthy(Field(recipe, "time")) ==> r.value == Field(recipe, "time")
    ensures r.Some? && !Truthy(Field(recipe, "cooking_time")) && !Truthy(Field(recipe, "time")) ==>
              r.value == Str(Decimal(EstimatedMinutes(Field(recipe, "steps"))) + MinutesSuffix)
  {
    var cookingTime, time, steps := Field(recipe, "cooking_time"), Field(recipe, "time"), Field(recipe, "steps");
    if !(Truthy(cookingTime) || Truthy(time) || Truthy(steps)) then None
    else Some(Or(cookingTime, Or(time, Str(Decimal(EstimatedMinutes(steps)) + MinutesSuffix))))
  }

  /** With no time given and `n` steps, the row reads back as `5 n` minutes. */
  lemma TimeFromStepCount(recipe: Value)
    requires !Nullish(recipe)
    requires !Truthy(Field(recipe, "cooking_time")) && !Truthy(Field(recipe, "time"))
    requires Field(recipe, "steps").Arr? && Field(recipe, "steps").items != []
    ensures TimeText(recipe).Some? && TimeText(recipe).value.Str?
    ensures var text := TimeText(recipe).value.s;
            var digits := text[..|text| - |MinutesSuffix|];
            |text| > |MinutesSuffix| && text[|text| - |MinutesSuffix|..] == MinutesSuffix
            && (forall i :: 0 <= i < |digits| ==> IsDigit(digits[i]))
            && DigitsValue(digits) == MinutesPerStep * |Field(recipe, "steps").items|
  {
    var m := EstimatedMinutes(Field(recipe, "steps"));
    var text := Decimal(m) + MinutesSuffix;
    assert text[..|text| - |MinutesSuffix|] == Decimal(m);
    assert text[|text| - |MinutesSuffix|..] == MinutesSuffix;
    DecimalRoundTrip(m);
  }

  /** The ingredient preview: nothing, the shown ingredients with a flag
      for "more follow", or a `TypeError` (a string has no `join`). */
  datatype Preview = NoPreview | Shown(shown: seq<Value>, more: bool) | PreviewThrows

  /** Lines 107-111: a non-empty ingredient array previews its first three
      entries, flagging that more follow when there are over three. */
  function IngredientPreview(recipe: Value): (r: Preview)
    requires !Nullish(recipe)
    ensures var ingredients := Field(recipe, "ingredients");
            && (r.Shown? <==> ingredients.Arr? && ingredients.items != [])
            && (r.PreviewThrows? <==> ingredients.Str? && ingredients.s != "")
            && (r.Shown? ==>
                  && |r.shown| == Min(IngredientPreviewCount, |ingredients.items|)
                  && r.shown == ingredients.items[..|r.shown|]
                  && (r.more <==> |ingredients.items| > IngredientPreviewCount))
  {
    var ingredients := Field(recipe, "ingredients");
    if !Truthy(ingredients) then NoPreview
    else match Length(ingredients)
      case None => NoPreview
      case Some(n) =>
        if n == 0 then NoPreview
        else if ingredients.Arr? then
          Shown(ingredients.items[..Min(IngredientPreviewCount, n)], n > IngredientPreviewCount)
        else PreviewThrows
  }

  /** The preview line: the shown entries joined by " • ", then " • ..." when
      more follow. */
  function PreviewLine(shown: seq<Value>, more: bool, rt: Runtime): (r: string)
    ensures more ==> |MoreIngredients| <= |r| && r[|r| - |MoreIngredients|..] == MoreIngredients
    ensures shown == [] ==> r == (if more then MoreIngredients else "")
    ensures |shown| == 1 && shown[0].Str? ==> r == shown[0].s + (if more then MoreIngredients else "")
  {
    assert |shown| == 1 && shown[0].Str? ==> Join(shown, IngredientSeparator, rt) == shown[0].s by {
      if |shown| == 1 && shown[0].Str? {
        JoinOfStrings(shown, [shown[0].s], IngredientSeparator, rt);
      }
    }
    Join(shown, IngredientSeparator, rt) + (if more then MoreIngredients else "")
  }

  /** A preview of named ingredients is the names joined by the
      separator, and it is never a blank line when some name is not empty,
      more follow, or two names are shown. */
  lemma PreviewLineOfNames(shown: seq<Value>, names: seq<string>, more: bool, rt: Runtime)
    requires |shown| == |names|
    requires forall i :: 0 <= i < |shown| ==> shown[i] == Str(names[i])
    ensures PreviewLine(shown, more, rt) == JoinTexts(names, IngredientSeparator) + (if more then MoreIngredients else "")
    ensures (exists i :: 0 <= i < |names| && names[i] != "") || more || |names| > 1 ==> PreviewLine(shown, more, rt) != ""
  {
    JoinOfStrings(shown, names, IngredientSeparator, rt);
    JoinTextsEmpty(names, IngredientSeparator);
  }

  lemma JoinOfStrings(items: seq<Value>, names: seq<string>, sep: string, rt: Runtime)
    requires |items| == |names|
    requires forall i :: 0 <= i < |items| ==> items[i] == Str(names[i])
    ensures Join(items, sep, rt) == JoinTexts(names, sep)
  {
    var parts := seq(|items|, i requires 0 <= i < |items| =>
                       if Nullish(items[i]) then "" else ToText(items[i], rt));
    assert forall i :: 0 <= i < |items| ==> parts[i] == names[i];
    assert parts == names;
  }

  /** A numbered step line. */
  datatype StepLine = StepLine(number: nat, step: Value)

  /** The step preview: the first steps, numbered from one, and the "+k more
      steps" note. */
  datatype StepsPreview = StepsPreview(lines: seq<StepLine>, more: Option<string>)

  function MoreStepsText(k: nat): (note: string)
    ensures 1 + |MoreStepsSuffix| < |note|
    ensures note[0] == '+' && note[|note| - |MoreStepsSuffix|..] == MoreStepsSuffix
    ensures var digits := note[1..|note| - |MoreStepsSuffix|];
            && (forall i :: 0 <= i < |digits| ==> IsDigit(digits[i]))
            && DigitsValue(digits) == k
  {
    var note := "+" + Decimal(k) + MoreStepsSuffix;
    assert note[1..|note| - |MoreStepsSuffix|] == Decimal(k);
    DecimalRoundTrip(k);
    note
  }

  /** Lines 117-133: an array of steps shows its first two numbered 1 and
      2, and notes how many are not shown when there are more. */
  function StepPreview(recipe: Value): (r: Option<StepsPreview>)
    requires !Nullish(recipe)
    ensures var steps := Field(recipe, "steps");
            && (r.Some? <==> steps.Arr? && steps.items != [])
            && (r.Some? ==>
                  && |r.value.lines| == Min(StepPreviewCount, |steps.items|)
                  && (forall i :: 0 <= i < |r.value.lines| ==> r.value.lines[i] == StepLine(i + 1, steps.items[i]))
                  && (r.value.more.Some? <==> |steps.items| > StepPreviewCount))
  {
    var steps := Field(recipe, "steps");
    if steps.Arr? && |steps.items| > 0 then
      var n := |steps.items|;
      Some(StepsPreview(seq(Min(StepPreviewCount, n), i requires 0 <= i < Min(StepPreviewCount, n) => StepLine(i + 1, steps.items[i])),
                        if n > StepPreviewCount then Some(MoreStepsText(n - StepPreviewCount)) else None))
    else None
  }

  /** Nothing is lost: the steps shown plus the count in the note add up
      to the number of steps. */
  lemma StepPreviewAccountsForEveryStep(recipe: Value)
    requires !Nullish(recipe) && StepPreview(recipe).Some?
    ensures var p := StepPreview(recipe).value;
            var n := |Field(recipe, "steps").items|;
            && (p.more.None? ==> |p.lines| == n)
            && (p.more.Some? ==>
                  var note := p.more.value;
                  var digits := note[1..|note| - |MoreStepsSuffix|];
                  && 1 + |MoreStepsSuffix| < |note|
                  && note[0] == '+' && note[|note| - |MoreStepsSuffix|..] == MoreStepsSuffix
                  && (forall i :: 0 <= i < |digits| ==> IsDigit(digits[i]))
                  && |p.lines| + DigitsValue(digits) == n)
  {
    var p := StepPreview(recipe).value;
    var n := |Field(recipe, "steps").items|;
    if n > StepPreviewCount {
      var k := n - StepPreviewCount;
      assert p.more == Some(MoreStepsText(k)) && |p.lines| == StepPreviewCount;
    }
  }

  /** One recipe card. */
  datatype RecipeCard = RecipeCard(title: Value, time: Option<Value>, ingredients: Preview, steps: Option<StepsPreview>)

  /** Lines 80-137: the card of one recipe; `None` is the `TypeError` of
      reading a field of a null or undefined recipe. */
  function Card(recipe: Value): (r: Option<RecipeCard>)
    ensures r.None? <==> Nullish(recipe)
    ensures r.Some? ==> Truthy(r.value.title) && (r.value.steps.Some? ==> r.value.time.Some?)
    ensures r.Some? ==>
              r.value == RecipeCard(Title(recipe), TimeText(recipe), IngredientPreview(recipe), StepPreview(recipe))
  {
    if Nullish(recipe) then None
    else Some(RecipeCard(Title(recipe), TimeText(recipe), IngredientPreview(recipe), StepPreview(recipe)))
  }
}

=== FILE: history_screen.dfy ===
/** The history screen (MyApp/app/_screens/HistoryScreen.tsx): the relative
    time text of an entry and the state update that loads the list.

    `formatTime` subtracts the entry's parsed timestamp from the clock; both
    are outside the model, so the text is a function of the elapsed
    milliseconds, `None` when the timestamp does not parse (JavaScript's
    `NaN`). */
module HistoryScreen {
  import opened Wrappers
  import opened Json
  import opened Numerals
  import Api

  const MinuteMs: nat := 60000
  const HourMs: nat := 3600000
  const DayMs: nat := 86400000

  const JustNow: string := "Vừa xong"
  const MinutesAgo: string := " phút trước"
  const HoursAgo: string := " giờ trước"
  const DaysAgo: string := " ngày trước"

  /** `formatTime`: whole minutes, hours and days elapsed, each rounded down;
      under a minute (a future timestamp included) is "just now", under an
      hour counts minutes, under a day hours, and anything longer days. An
      unparsable timestamp makes every comparison false and prints "NaN". */
  function FormatTime(elapsedMs: Option<int>): (text: string)
    ensures elapsedMs.None? ==> text == "NaN" + DaysAgo
    ensures elapsedMs.Some? ==>
              var d := elapsedMs.value;
              && (d < MinuteMs ==> text == JustNow)
              && (MinuteMs <= d < HourMs ==>
                    1 <= d / MinuteMs <= 59 && text == Decimal(d / MinuteMs) + MinutesAgo)
              && (HourMs <= d < DayMs ==>
                    1 <= d / HourMs <= 23 && text == Decimal(d / HourMs) + HoursAgo)
              && (DayMs <= d ==> 1 <= d / DayMs && text == Decimal(d / DayMs) + DaysAgo)
  {
    match elapsedMs
    case None => "NaN" + DaysAgo
    case Some(diffMs) =>
      // Dafny's `/` rounds down for a positive divisor, as `Math.floor(a / b)` does.
      var diffMins := diffMs / MinuteMs;
      var diffHours := diffMs / HourMs;
      var diffDays := diffMs / DayMs;
      if diffMins < 1 then JustNow
      else if diffMins < 60 then Decimal(diffMins) + MinutesAgo
      else if diffHours < 24 then Decimal(diffHours) + HoursAgo
      else Decimal(diffDays) + DaysAgo
  }

  /** Two elapsed times under an hour (and at least a minute) print the same
      text exactly when they have the same count of whole minutes. */
  lemma FormatTimeDistinguishesMinutes(d1: int, d2: int)
    requires MinuteMs <= d1 < HourMs && MinuteMs <= d2 < HourMs
    ensures FormatTime(Some(d1)) == FormatTime(Some(d2)) <==> d1 / MinuteMs == d2 / MinuteMs
  {
    var a, b := Decimal(d1 / MinuteMs), Decimal(d2 / MinuteMs);
    if a + MinutesAgo == b + MinutesAgo {
      assert a == (a + MinutesAgo)[..|a + MinutesAgo| - |MinutesAgo|];
      assert b == (b + MinutesAgo)[..|b + MinutesAgo| - |MinutesAgo|];
    }
    DecimalInjective(d1 / MinuteMs, d2 / MinuteMs);
  }

  /** The screen's state: the loading flag and the list shown. */
  class HistoryView {
    var loading: bool
    var history: Value

    constructor ()
      ensures !loading && history == Arr([])
    {
      loading := false;
      history := Arr([]);
    }

    /** `fetchFullHistory`, with the `/history` body it receives. The
        `getAllHistory` call it awaits turns every failure into `[]` and
        never rejects, so its `catch` branch cannot be taken: the list is
        always replaced. */
    method FetchFullHistory(body: Option<string>, rt: Runtime)
      modifies this
      ensures !loading
      ensures history == Api.HistoryResponse(body, rt)
    {
      loading := true;
      var data := Api.HistoryResponse(body, rt);
      history := data;
      loading := false;
    }
  }
}

=== FILE: history_store.dfy ===
/** The server's recent-history list (ingredient_detector/api/main.py):
    newest first, at most 20 entries, written by `add_history` and read by
    `get_latest_history` and `get_all_history`.

    The JSON file the server keeps the list in is replaced by the object's
    field; the clock is a parameter of `AddHistory`. */
module HistoryStore {
  import opened Wrappers
  import opened Json
  import opened Numerals

  const MaxEntries: nat := 20
  const LatestCount: nat := 5

  datatype Kind = Search | Image

  /** A stored entry: `recipe_name`, `type` and `timestamp`. */
  datatype Entry = Entry(recipeName: string, kind: Kind, timestamp: string)

  /** What `add_history` answers. */
  datatype AddOutcome = Ignored | SkippedDuplicate | Added(item: Entry)

  /** The characters Python's `str.isspace` accepts. */
  predicate IsSpace(c: char) {
    || '\t' <= c <= '\r'                    // tab, line feed, vertical tab, form feed, carriage return
    || '\U{1c}' <= c <= '\U{1f}'            // file, group, record and unit separators
    || c == ' ' || c == '\U{85}' || c == '\U{a0}' || c == '\U{1680}'
    || '\U{2000}' <= c <= '\U{200a}'
    || c == '\U{2028}' || c == '\U{2029}' || c == '\U{202f}' || c == '\U{205f}' || c == '\U{3000}'
  }

  function TrimStart(s: string): string {
    if s != "" && IsSpace(s[0]) then TrimStart(s[1..]) else s
  }

  function TrimEnd(s: string): string {
    if s != "" && IsSpace(s[|s| - 1]) then TrimEnd(s[..|s| - 1]) else s
  }

  /** `s.strip()`: `s` without its leading and trailing white space, that
      is, the middle slice of `s` between two runs of white space, neither
      end of which is white space. */
  function Strip(s: string): (r: string)
    ensures r != "" ==> !IsSpace(r[0]) && !IsSpace(r[|r| - 1])
    ensures |r| <= |s|
    ensures exists a, b :: 0 <= a <= b <= |s| && r == s[a..b]
              && (forall i :: 0 <= i < a ==> IsSpace(s[i]))
              && (forall i :: b <= i < |s| ==> IsSpace(s[i]))
  {
    TrimStartSpec(s);
    TrimEndSpec(TrimStart(s));
    TrimBothIsSlice(s);
    TrimEnd(TrimStart(s))
  }

  /** Trimming both ends leaves the slice `s[a..b]`, with white space only
      before `a` and from `b` on. */
  lemma TrimBothIsSlice(s: string)
    ensures var t := TrimStart(s);
            var a, b := |s| - |t|, |s| - |t| + |TrimEnd(t)|;
            && 0 <= a <= b <= |s| && TrimEnd(t) == s[a..b]
            && (forall i :: 0 <= i < a ==> IsSpace(s[i]))
            && (forall i :: b <= i < |s| ==> IsSpace(s[i]))
  {
    var t := TrimStart(s);
    var r := TrimEnd(t);
    TrimStartSpec(s);
    TrimEndSpec(t);
    var a, b := |s| - |t|, |s| - |t| + |r|;
    assert t == s[a..];
    forall i | b <= i < |s|
      ensures IsSpace(s[i])
    {
      assert s[i] == t[i - a];
    }
  }

  lemma {:induction false} TrimStartSpec(s: string)
    ensures var r := TrimStart(s);
            |r| <= |s| && r == s[|s| - |r|..] && (r != "" ==> !IsSpace(r[0]))
            && forall i :: 0 <= i < |s| - |r| ==> IsSpace(s[i])
  {
    if s != "" && IsSpace(s[0]) {
      var t := s[1..];
      TrimStartSpec(t);
      var r := TrimStart(t);
      assert r == t[|t| - |r|..] == s[|s| - |r|..];
      forall i | 1 <= i < |s| - |r|
        ensures IsSpace(s[i])
      {
        assert s[i] == t[i - 1];
      }
    }
  }

  lemma {:induction false} TrimEndSpec(s: string)
    ensures var r := TrimEnd(s);
            |r| <= |s| && r == s[..|r|] && (r != "" ==> !IsSpace(r[|r| - 1]))
            && forall i :: |r| <= i < |s| ==> IsSpace(s[i])
  {
    if s != "" && IsSpace(s[|s| - 1]) {
      var t := s[..|s| - 1];
      TrimEndSpec(t);
      var r := TrimEnd(t);
      assert r == t[..|r|] == s[..|r|];
      forall i | |r| <= i < |t|
        ensures IsSpace(s[i])
      {
        assert s[i] == t[i];
      }
    }
  }

  lemma TrimStartKeeps(s: string)
    requires s == "" || !IsSpace(s[0])
    ensures TrimStart(s) == s
  {
  }

  /** Stripping twice is stripping once. */
  lemma StripIdempotent(s: string)
    ensures Strip(Strip(s)) == Strip(s)
  {
    var r := Strip(s);
    TrimStartSpec(s);
    TrimEndSpec(TrimStart(s));
    TrimStartKeeps(r);
    TrimEndSpec(r);
  }

  /** A name is blank exactly when it is made of white space only. */
  lemma StripBlank(s: string)
    ensures Strip(s) == "" <==> forall i :: 0 <= i < |s| ==> IsSpace(s[i])
  {
    TrimStartSpec(s);
    TrimEndSpec(TrimStart(s));
  }

  /** Line 74-75: a type other than "search" or "image", after stripping, is
      stored as "search". */
  function NormaliseKind(histType: string): (k: Kind)
    ensures k == Image <==> Strip(histType) == "image"
  {
    if Strip(histType) == "image" then Image else Search
  }

  /** Lines 70-95 on values: the new list and the answer. Only an added
      entry changes the list; it is the stripped name with the normalised
      type and the time of the call, and it goes first. */
  function AddSpec(entries: seq<Entry>, recipeName: string, histType: string, now: string): (r: (seq<Entry>, AddOutcome))
    ensures Strip(recipeName) == "" ==> r == (entries, Ignored)
    ensures !r.1.Added? ==> r.0 == entries
    ensures r.1.Added? ==>
              && r.1.item == Entry(Strip(recipeName), NormaliseKind(histType), now)
              && r.0 != [] && r.0[0] == r.1.item && |r.0| <= MaxEntries
  {
    var name := Strip(recipeName);
    var kind := NormaliseKind(histType);
    if name == "" then (entries, Ignored)
    else if entries != [] && entries[0].recipeName == name && entries[0].kind == kind then (entries, SkippedDuplicate)
    else
      var item := Entry(name, kind, now);
      var grown := [item] + entries;
      (if |grown| > MaxEntries then grown[..MaxEntries] else grown, Added(item))
  }

  /** What the store keeps true: at most 20 entries, every name stripped
      and non-empty. */
  ghost predicate WellFormed(entries: seq<Entry>) {
    |entries| <= MaxEntries
    && forall i :: 0 <= i < |entries| ==> entries[i].recipeName != "" && Strip(entries[i].recipeName) == entries[i].recipeName
  }

  /** Adding keeps the store well formed. */
  lemma AddKeepsWellFormed(entries: seq<Entry>, recipeName: string, histType: string, now: string)
    requires WellFormed(entries)
    ensures WellFormed(AddSpec(entries, recipeName, histType, now).0)
  {
    StripIdempotent(recipeName);
  }

  /** A blank name changes nothing and is answered "ignored". */
  lemma AddBlankIgnored(entries: seq<Entry>, recipeName: string, histType: string, now: string)
    requires forall i :: 0 <= i < |recipeName| ==> IsSpace(recipeName[i])
    ensures AddSpec(entries, recipeName, histType, now) == (entries, Ignored)
  {
    StripBlank(recipeName);
  }

  /** Only the newest entry is compared: an add is skipped exactly when the
      head has the same stripped name and normalised type. */
  lemma AddSkipsOnlyHeadDuplicate(entries: seq<Entry>, recipeName: string, histType: string, now: string)
    requires Strip(recipeName) != ""
    ensures AddSpec(entries, recipeName, histType, now).1 == SkippedDuplicate
            <==> entries != [] && entries[0].recipeName == Strip(recipeName) && entries[0].kind == NormaliseKind(histType)
    ensures AddSpec(entries, recipeName, histType, now).1 != SkippedDuplicate ==>
              AddSpec(entries, recipeName, histType, now).1 == Added(Entry(Strip(recipeName), NormaliseKind(histType), now))
  {
  }

  /** An added entry goes first, every earlier entry follows in its old
      order, and only entries beyond the 20th are dropped. */
  lemma AddPrepends(entries: seq<Entry>, recipeName: string, histType: string, now: string)
    requires AddSpec(entries, recipeName, histType, now).1.Added?
    ensures var (after, outcome) := AddSpec(entries, recipeName, histType, now);
            && after[0] == outcome.item
            && |after| == (if |entries| + 1 > MaxEntries then MaxEntries else |entries| + 1)
            && forall i :: 0 <= i < |after| - 1 ==> after[i + 1] == entries[i]
  {
  }

  /** Adding the same entry twice in a row stores it once. */
  lemma AddTwiceStoresOnce(entries: seq<Entry>, recipeName: string, histType: string, now: string, later: string)
    ensures var once := AddSpec(entries, recipeName, histType, now).0;
            AddSpec(once, recipeName, histType, later).0 == once
  {
    StripIdempotent(recipeName);
  }

  /** Lines 43-53, minus the file: stored content that is not a list reads
      as the empty list; `None` is a missing or unreadable file. */
  function LoadHistory(stored: Option<Value>): (r: seq<Value>)
    ensures stored.Some? && stored.value.Arr? ==> r == stored.value.items
    ensures !(stored.Some? && stored.value.Arr?) ==> r == []
  {
    if stored.Some? && stored.value.Arr? then stored.value.items else []
  }

  /** The history list and the three operations on it. */
  class History {
    var entries: seq<Entry>

    ghost predicate Valid()
      reads this
    {
      WellFormed(entries)
    }

    /** A server that has no history file yet. */
    constructor ()
      ensures Valid() && entries == []
    {
      entries := [];
    }

    /** `add_history(recipe_name, hist_type)` at time `now`. */
    method AddHistory(recipeName: string, histType: string, now: string) returns (outcome: AddOutcome)
      requires Valid()
      modifies this
      ensures Valid()
      ensures (entries, outcome) == AddSpec(old(entries), recipeName, histType, now)
    {
      AddKeepsWellFormed(entries, recipeName, histType, now);
      var name := Strip(recipeName);
      var kind := NormaliseKind(histType);
      if name == "" {
        return Ignored;
      }
      if entries != [] && entries[0].recipeName == name && entries[0].kind == kind {
        return SkippedDuplicate;
      }
      var item := Entry(name, kind, now);
      entries := [item] + entries;
      if |entries| > MaxEntries {
        entries := entries[..MaxEntries];
      }
      outcome := Added(item);
    }

    /** `get_latest_history`: the five newest entries, or all when fewer. */
    method GetLatestHistory() returns (latest: seq<Entry>)
      ensures |latest| == Min(LatestCount, |entries|)
      ensures latest == entries[..|latest|]
    {
      latest := entries[..Min(LatestCount, |entries|)];
    }

    /** `get_all_history`: the whole list, newest first. */
    method GetAllHistory() returns (all: seq<Entry>)
      ensures all == entries
    {
      all := entries;
    }
  }
}

=== FILE: ingredient_screen.dfy ===
/** The ingredient screen (MyApp/app/_screens/IngredientScreen.tsx): the
    chosen ingredients, the tagging of a recommendation as "online" or
    "offline", and the guard that decides which result cards are drawn. */
module IngredientScreen {
  import opened Wrappers
  import opened Json
  import Api

  /** `Without(xs, v)`: `xs.filter(x => x !== v)` for a primitive `v`. */
  function Without(xs: seq<Value>, v: Value): (r: seq<Value>)
    ensures |r| <= |xs|
    ensures forall x :: x in r <==> x in xs && x != v
  {
    if xs == [] then [] else (if xs[0] == v then [] else [xs[0]]) + Without(xs[1..], v)
  }

  /** `toggleIngredient(name)` on the previous list: an empty name changes
      nothing, a chosen name is removed (every copy of it) and any other
      name is appended at the end. */
  function Toggle(prev: seq<Value>, name: string): (r: seq<Value>)
    ensures name == "" ==> r == prev
    ensures name != "" ==> (Str(name) in r <==> Str(name) !in prev)
    ensures forall x :: x != Str(name) ==> (x in r <==> x in prev)
    ensures name != "" && Str(name) !in prev ==> r == prev + [Str(name)]
    ensures name != "" && Str(name) in prev ==> |r| < |prev|
  {
    if name == "" then prev
    else if Str(name) in prev then RemovedShrinks(prev, Str(name)); Without(prev, Str(name))
    else prev + [Str(name)]
  }

  lemma {:induction false} RemovedShrinks(xs: seq<Value>, v: Value)
    requires v in xs
    ensures |Without(xs, v)| < |xs|
  {
    if xs[0] != v {
      RemovedShrinks(xs[1..], v);
    }
  }

  lemma {:induction false} WithoutAppendOther(xs: seq<Value>, v: Value, w: Value)
    ensures Without(xs + [w], v) == Without(xs, v) + (if w == v then [] else [w])
  {
    if xs == [] {
      assert xs + [w] == [w];
    } else {
      assert (xs + [w])[1..] == xs[1..] + [w];
      WithoutAppendOther(xs[1..], v, w);
    }
  }

  lemma {:induction false} WithoutAbsent(xs: seq<Value>, v: Value)
    requires v !in xs
    ensures Without(xs, v) == xs
  {
    if xs != [] {
      WithoutAbsent(xs[1..], v);
    }
  }

  /** Choosing a name that was not chosen and then removing it again gives
      back the list as it was. */
  lemma ToggleTwiceRestores(prev: seq<Value>, name: string)
    requires Str(name) !in prev
    ensures Toggle(Toggle(prev, name), name) == prev
  {
    if name != "" {
      WithoutAppendOther(prev, Str(name), Str(name));
      WithoutAbsent(prev, Str(name));
    }
  }

  /** Toggling one name leaves every other chosen name where it was
      relative to the rest: with the toggled name set aside, the list is
      the same before and after. */
  lemma ToggleKeepsOthersInOrder(prev: seq<Value>, name: string)
    ensures Without(Toggle(prev, name), Str(name)) == Without(prev, Str(name))
  {
    if name != "" {
      if Str(name) in prev {
        WithoutIdempotent(prev, Str(name));
      } else {
        WithoutAppendOther(prev, Str(name), Str(name));
      }
    }
  }

  lemma WithoutIdempotent(xs: seq<Value>, v: Value)
    ensures Without(Without(xs, v), v) == Without(xs, v)
  {
    WithoutAbsent(Without(xs, v), v);
  }

  datatype ResultKind = Online | Offline

  /** The object `fetchRecipes` stores: the tag, the list and the detected
      ingredients. */
  datatype ApiResult = ApiResult(kind: ResultKind, results: Value, ingredients: seq<Value>)

  /** Lines 89-93: a recommendation is tagged "online" exactly when its list
      has a positive `length`; a missing length compares as false. The
      caller rules out a null or undefined list, on which `length` throws. */
  function Tag(res: Api.Recommendation): (r: ApiResult)
    requires !Nullish(res.recommended)
    ensures r.kind == Online <==>
              || (res.recommended.Arr? && res.recommended.items != [])
              || (res.recommended.Str? && res.recommended.s != "")
    ensures r.results == res.recommended && r.ingredients == res.detected
  {
    var n := Length(res.recommended);
    ApiResult(if n.Some? && n.value > 0 then Online else Offline, res.recommended, res.detected)
  }

  /** Lines 145-146: the number of recipe cards drawn. Cards are drawn only
      for a result tagged "offline"; a list that is neither an array nor
      null or undefined has no `map` method and the render throws (`None`). */
  function CardsRendered(apiResult: Option<ApiResult>): (r: Option<nat>)
    ensures apiResult.None? || apiResult.value.kind == Online ==> r == Some(0)
    ensures apiResult.Some? && apiResult.value.kind == Offline ==>
              (r.None? <==> !apiResult.value.results.Arr? && !Nullish(apiResult.value.results))
    ensures apiResult.Some? && apiResult.value.kind == Offline && apiResult.value.results.Arr? ==>
              r == Some(|apiResult.value.results.items|)
    ensures r.Some? && r.value > 0 ==> apiResult.Some? && apiResult.value.kind == Offline && apiResult.value.results.Arr?
  {
    if apiResult.None? || apiResult.value.kind != Offline then Some(0)
    else match apiResult.value.results
      case Undefined => Some(0)
      case Null => Some(0)
      case Arr(items) => Some(|items|)
      case _ => None
  }

  /** The guard never lets a card through: a result is tagged "offline" only
      when its list is empty or is not an array or a string, so zero cards
      are drawn or the render throws (an empty string has no `map`). */
  lemma NoCardIsEverRendered(res: Api.Recommendation)
    requires !Nullish(res.recommended)
    ensures CardsRendered(Some(Tag(res))) != Some(0) ==> CardsRendered(Some(Tag(res))).None?
    ensures res.recommended.Arr? ==> CardsRendered(Some(Tag(res))) == Some(0)
  {
  }

  /** The screen's state. */
  class IngredientView {
    var selected: seq<Value>
    var apiResult: Option<ApiResult>

    constructor ()
      ensures selected == [] && apiResult.None?
    {
      selected := [];
      apiResult := None;
    }

    /** `toggleIngredient(name)`. */
    method ToggleIngredient(name: string)
      modifies this
      ensures selected == Toggle(old(selected), name)
      ensures apiResult == old(apiResult)
    {
      selected := Toggle(selected, name);
    }

    /** `fetchRecipes(uris)`: nothing happens without an image; otherwise the
        recommendation comes from `smartRecommend` (the connectivity flag and
        the two response bodies are its inputs) and is stored tagged, and
        its detected ingredients become the chosen ones. `res` is that
        recommendation; a null or undefined list makes `length` throw before
        anything is stored, and the state is left as it was. */
    method FetchRecipes(uris: seq<string>, connected: bool, predictBody: Option<string>,
                        recommendBody: Option<string>, dataset: seq<Value>, rt: Runtime)
      returns (res: Option<Api.Recommendation>)
      requires forall k :: 0 <= k < |dataset| ==> Api.HasIngredientList(dataset[k])
      modifies this
      ensures uris == [] <==> res.None?
      ensures res.Some? && Api.Detected(predictBody, rt).None? ==> res.value == Api.EmptyRecommendation
      ensures res.Some? && !connected && Api.Detected(predictBody, rt).Some? ==>
                var detected := Api.Detected(predictBody, rt).value;
                res.value == Api.Recommendation(detected, Arr(Api.OfflineFilter(dataset, detected)))
      ensures res.Some? && connected && Api.Detected(predictBody, rt).Some? ==>
                res.value == (if Api.OnlineRecipes(recommendBody, rt).None? then Api.EmptyRecommendation
                              else Api.Recommendation(Api.Detected(predictBody, rt).value,
                                                      Api.OnlineRecipes(recommendBody, rt).value))
      ensures res.None? || Nullish(res.value.recommended) ==>
                selected == old(selected) && apiResult == old(apiResult)
      ensures res.Some? && !Nullish(res.value.recommended) ==>
                apiResult == Some(Tag(res.value)) && selected == res.value.detected
      ensures uris != [] && !connected ==> CardsRendered(apiResult) == Some(0)
    {
      if |uris| == 0 {
        return None;
      }
      var r, _ := Api.SmartRecommend(connected, predictBody, recommendBody, dataset, rt);
      res := Some(r);
      if Nullish(r.recommended) {
        return;
      }
      apiResult := Some(Tag(r));
      selected := r.detected;
      NoCardIsEverRendered(r);
    }
  }
}

=== FILE: json.dfy ===
/** JSON values as the JavaScript client sees them once `JSON.parse` has
    produced them, with the few JavaScript operators the client applies to
    them: truthiness, property access (plain and optional), `??`, `||`,
    `.length`, `[0]`, `SameValueZero` (used by `Set` and `includes`) and the
    conversion to text that `join` and `FormData.append` perform.

    `Undefined` is not a JSON value; it is what reading a missing property
    yields. The Python side stores the same values and never produces it. */
module Json {
  import opened Wrappers

  datatype Value =
    | Undefined
    | Null
    | Bool(b: bool)
    | Num(n: real)
    | Str(s: string)
    | Arr(items: seq<Value>)
    | Obj(fields: map<string, Value>)

  /** Host builtins the model cannot see: `JSON.parse` (including the
      conversion of a non-string argument to text that it performs first;
      `None` is a thrown `SyntaxError`) and `Number.prototype.toString`. */
  datatype Runtime = Runtime(parse: Value -> Option<Value>, numberText: real -> string)

  /** JavaScript truthiness: `undefined`, `null`, `false`, `0` and `""` are falsy;
      every array and every object, even an empty one, is truthy. */
  predicate Truthy(v: Value) {
    match v
    case Undefined => false
    case Null => false
    case Bool(b) => b
    case Num(n) => n != 0.0
    case Str(s) => s != ""
    case Arr(_) => true
    case Obj(_) => true
  }

  predicate Nullish(v: Value) {
    v.Undefined? || v.Null?
  }

  predicate IsPrimitive(v: Value) {
    !v.Arr? && !v.Obj?
  }

  /** `SameValueZero(a, b)`: primitives compare by value; two arrays or
      objects are the same only when they are one reference, and values that
      `JSON.parse` builds never share a reference, so they are never the same. */
  predicate SameValueZero(a: Value, b: Value) {
    IsPrimitive(a) && a == b
  }

  /** `o.key`: `None` is the `TypeError` thrown when `o` is null or undefined. */
  function Get(o: Value, key: string): (r: Option<Value>)
    ensures r.None? <==> Nullish(o)
    ensures o.Obj? && key in o.fields ==> r == Some(o.fields[key])
    ensures r.Some? && !(o.Obj? && key in o.fields) ==> r.value == Undefined
  {
    match o
    case Undefined => None
    case Null => None
    case Obj(fields) => Some(if key in fields then fields[key] else Undefined)
    case _ => Some(Undefined)
  }

  /** `o?.key`: never throws; a null or undefined `o` gives `undefined`. */
  function OptGet(o: Value, key: string): (r: Value)
    ensures Nullish(o) ==> r == Undefined
    ensures !Nullish(o) ==> Some(r) == Get(o, key)
  {
    if Nullish(o) then Undefined else Get(o, key).value
  }

  /** `a ?? b` */
  function Coalesce(a: Value, b: Value): (r: Value)
    ensures Nullish(a) ==> r == b
    ensures !Nullish(a) ==> r == a
  {
    if Nullish(a) then b else a
  }

  /** `a || b` */
  function Or(a: Value, b: Value): (r: Value)
    ensures Truthy(a) ==> r == a
    ensures !Truthy(a) ==> r == b
  {
    if Truthy(a) then a else b
  }

  /** `v.length` for a `v` that is not null or undefined: the element count of
      an array, the character count of a string, `undefined` (here `None`)
      for anything else. */
  function Length(v: Value): (r: Option<nat>)
    ensures r.Some? <==> v.Arr? || v.Str?
    ensures v.Arr? ==> r == Some(|v.items|)
    ensures v.Str? ==> r == Some(|v.s|)
  {
    match v
    case Arr(items) => Some(|items|)
    case Str(s) => Some(|s|)
    case _ => None
  }

  /** `v[0]` for a `v` that is not null or undefined. */
  function First(v: Value): (r: Value)
    ensures v.Arr? && v.items != [] ==> r == v.items[0]
    ensures v.Str? && v.s != "" ==> r == Str([v.s[0]])
    ensures !(v.Arr? && v.items != []) && !(v.Str? && v.s != "") ==> r == Undefined
  {
    match v
    case Arr(items) => if items == [] then Undefined else items[0]
    case Str(s) => if s == "" then Undefined else Str([s[0]])
    case _ => Undefined
  }

  /** `xs.includes(x)` on an array. */
  predicate Includes(xs: seq<Value>, x: Value) {
    exists y | y in xs :: SameValueZero(y, x)
  }

  /** `String(v)`: the text of a value, as `join` and `FormData.append`
      produce it. An array is the comma-join of its elements. */
  function ToText(v: Value, rt: Runtime): string
    decreases v, 1
  {
    match v
    case Undefined => "undefined"
    case Null => "null"
    case Bool(b) => if b then "true" else "false"
    case Num(n) => rt.numberText(n)
    case Str(s) => s
    case Arr(items) => Join(items, ",", rt)
    case Obj(_) => "[object Object]"
  }

  /** `items.join(sep)`: the text of each element, null and undefined
      giving the empty text, with `sep` between neighbours. */
  function Join(items: seq<Value>, sep: string, rt: Runtime): (r: string)
    decreases Arr(items), 0
  {
    JoinTexts(seq(|items|, i requires 0 <= i < |items| =>
                    if Nullish(items[i]) then "" else ToText(items[i], rt)), sep)
  }

  /** The parts with `sep` between neighbours. */
  function JoinTexts(parts: seq<string>, sep: string): string {
    if |parts| == 0 then ""
    else if |parts| == 1 then parts[0]
    else JoinTexts(parts[..|parts| - 1], sep) + sep + parts[|parts| - 1]
  }

  /** Joining only empty parts gives the empty text exactly when no
      separator is placed, that is, with at most one part or an empty separator. */
  lemma {:induction false} JoinTextsEmpty(parts: seq<string>, sep: string)
    ensures JoinTexts(parts, sep) == "" <==>
            (forall i :: 0 <= i < |parts| ==> parts[i] == "") && (|parts| <= 1 || sep == "")
  {
    if |parts| > 1 {
      var init, last := parts[..|parts| - 1], parts[|parts| - 1];
      JoinTextsEmpty(init, sep);
      assert JoinTexts(parts, sep) == JoinTexts(init, sep) + sep + last;
      if (forall i :: 0 <= i < |init| ==> init[i] == "") && last == "" {
        forall i | 0 <= i < |parts| ensures parts[i] == "" {
          if i < |init| {
            assert parts[i] == init[i];
          }
        }
      }
      if forall i :: 0 <= i < |parts| ==> parts[i] == "" {
        forall i | 0 <= i < |init| ensures init[i] == "" {
          assert init[i] == parts[i];
        }
      }
    }
  }
}

=== FILE: numerals.dfy ===
/** Decimal text of whole numbers, as a JavaScript template literal writes
    an integer-valued number below 10^21 (`${n}`), and the smaller of two
    counts, which every "at most this many" slice uses. */
module Numerals {

  function Min(a: nat, b: nat): (m: nat)
    ensures m <= a && m <= b && (m == a || m == b)
  {
    if a < b then a else b
  }

  predicate IsDigit(c: char) {
    '0' <= c <= '9'
  }

  function DigitChar(d: nat): (c: char)
    requires d < 10
    ensures IsDigit(c)
  {
    ['0', '1', '2', '3', '4', '5', '6', '7', '8', '9'][d]
  }

  function DigitValue(c: char): (d: nat)
    requires IsDigit(c)
    ensures d < 10 && DigitChar(d) == c
  {
    (c as int - '0' as int) as nat
  }

  /** The decimal digits of `n`, most significant first, with no leading zero. */
  function Decimal(n: nat): (s: string)
    ensures s != ""
    ensures forall i :: 0 <= i < |s| ==> IsDigit(s[i])
    ensures |s| > 1 ==> s[0] != '0'
  {
    if n < 10 then [DigitChar(n)] else Decimal(n / 10) + [DigitChar(n % 10)]
  }

  /** The value of a text made of decimal digits (the empty text reads as 0). */
  function DigitsValue(s: string): nat
    requires forall i :: 0 <= i < |s| ==> IsDigit(s[i])
  {
    if s == "" then 0 else 10 * DigitsValue(s[..|s| - 1]) + DigitValue(s[|s| - 1])
  }

  /** Reading the text back gives the number: `Decimal` loses nothing, so two
      different numbers never print the same. */
  lemma {:induction false} DecimalRoundTrip(n: nat)
    ensures DigitsValue(Decimal(n)) == n
  {
    if n >= 10 {
      DecimalRoundTrip(n / 10);
      var s := Decimal(n);
      assert s == Decimal(n / 10) + [DigitChar(n % 10)];
      assert s[..|s| - 1] == Decimal(n / 10);
      assert DigitValue(s[|s| - 1]) == n % 10;
    }
  }

  lemma DecimalInjective(m: nat, n: nat)
    ensures Decimal(m) == Decimal(n) <==> m == n
  {
    DecimalRoundTrip(m);
    DecimalRoundTrip(n);
  }
}

=== FILE: recipe_service.dfy ===
/** The server's ingredient-overlap recommender
    (ingredient_detector/api/recipe_service.py, `recommend_recipe`).

    The recipe catalogue the module loads from `recipes.json` is a parameter,
    and so is Python's `str.lower`. A recipe's score is the exact ratio of
    the distinct lower-cased names it shares with the detected list to its
    ingredient count; the source sorts on that ratio rounded to two decimals. */
module RecipeService {
  import opened Wrappers
  import opened Json
  import opened Numerals

  /** A catalogue entry: `name`, `ingredients` and the optional `steps`. */
  datatype CatalogueRecipe = CatalogueRecipe(name: string, ingredients: seq<string>, steps: Option<Value>)

  /** A returned entry: `name`, `match_score`, `ingredients`, `steps`. */
  datatype Match = Match(name: string, score: real, ingredients: seq<string>, steps: Value)

  /** What `recommend_recipe` returns: a one-element list holding a message,
      or the recommended entries. */
  datatype Recommendation = Message(text: string) | Recipes(list: seq<Match>)

  const NoIngredientsMessage: string := "Không phát hiện được nguyên liệu nào trong ảnh."
  const NoMatchMessage: string := "Chưa có món phù hợp tuyệt đối, thử thêm nguyên liệu khác nhé!"
  const TopCount: nat := 3

  function Lowered(names: seq<string>, lower: string -> string): (r: seq<string>)
    ensures |r| == |names|
    ensures forall i :: 0 <= i < |names| ==> r[i] == lower(names[i])
  {
    seq(|names|, i requires 0 <= i < |names| => lower(names[i]))
  }

  function Distinct(names: seq<string>): set<string> {
    set x | x in names
  }

  lemma {:induction false} DistinctAtMostLength(names: seq<string>)
    ensures |Distinct(names)| <= |names|
  {
    if names != [] {
      var init := names[..|names| - 1];
      DistinctAtMostLength(init);
      assert Distinct(names) == Distinct(init) + {names[|names| - 1]};
    }
  }

  lemma SubsetAtMost(a: set<string>, b: set<string>)
    requires a <= b
    ensures |a| <= |b|
  {
    assert b == a + (b - a);
  }

  /** `set(recipe_ings) & set(detected)`: the lower-cased names the recipe
      shares with the (already lower-cased) detected list. */
  function SharedNames(recipe: CatalogueRecipe, detected: seq<string>, lower: string -> string): (r: set<string>)
    ensures |r| <= |recipe.ingredients|
  {
    var names := Lowered(recipe.ingredients, lower);
    DistinctAtMostLength(names);
    SubsetAtMost(Distinct(names) * Distinct(detected), Distinct(names));
    Distinct(names) * Distinct(detected)
  }

  /** A shared name is a detected name that some recipe ingredient becomes
      once lower-cased, and every such name is shared. */
  lemma SharedNamesAre(recipe: CatalogueRecipe, detected: seq<string>, lower: string -> string)
    ensures forall x :: x in SharedNames(recipe, detected, lower) <==>
              x in detected && exists i :: 0 <= i < |recipe.ingredients| && lower(recipe.ingredients[i]) == x
  {
    var names := Lowered(recipe.ingredients, lower);
    forall x | x in detected && (exists i :: 0 <= i < |recipe.ingredients| && lower(recipe.ingredients[i]) == x)
      ensures x in SharedNames(recipe, detected, lower)
    {
      var i :| 0 <= i < |recipe.ingredients| && lower(recipe.ingredients[i]) == x;
      assert names[i] == x;
    }
  }

  /** Line 24: shared names over ingredient count, 0 for a recipe with no
      ingredients; a score lies in [0, 1]. */
  function Score(recipe: CatalogueRecipe, detected: seq<string>, lower: string -> string): (r: real)
    ensures 0.0 <= r <= 1.0
    ensures recipe.ingredients == [] ==> r == 0.0
  {
    if recipe.ingredients == [] then 0.0
    else
      var shared := SharedNames(recipe, detected, lower);
      RatioBounds(|shared|, |recipe.ingredients|);
      |shared| as real / |recipe.ingredients| as real
  }

  /** A score is positive exactly when the recipe has ingredients and shares
      at least one of them. */
  lemma ScorePositive(recipe: CatalogueRecipe, detected: seq<string>, lower: string -> string)
    ensures Score(recipe, detected, lower) > 0.0 <==>
              recipe.ingredients != [] && SharedNames(recipe, detected, lower) != {}
  {
    if recipe.ingredients != [] {
      RatioBounds(|SharedNames(recipe, detected, lower)|, |recipe.ingredients|);
    }
  }

  /** Line 24: for a recipe with ingredients, the score is the number of
      shared names over the number of ingredients. */
  lemma ScoreIsRatio(recipe: CatalogueRecipe, detected: seq<string>, lower: string -> string)
    requires recipe.ingredients != []
    ensures Score(recipe, detected, lower) * |recipe.ingredients| as real
            == |SharedNames(recipe, detected, lower)| as real
  {
  }

  lemma RatioBounds(m: nat, n: nat)
    requires 0 < n && m <= n
    ensures 0.0 <= m as real / n as real <= 1.0
    ensures m as real / n as real > 0.0 <==> m > 0
  {
    var q := m as real / n as real;
    assert q * n as real == m as real;
  }

  /** A positive score means some catalogue ingredient and some detected
      ingredient are equal once lower-cased. */
  lemma PositiveScoreSharesIngredient(recipe: CatalogueRecipe, ingredients: seq<string>, lower: string -> string)
    requires Score(recipe, Lowered(ingredients, lower), lower) > 0.0
    ensures exists i, j :: 0 <= i < |recipe.ingredients| && 0 <= j < |ingredients|
                           && lower(recipe.ingredients[i]) == lower(ingredients[j])
  {
    var detected := Lowered(ingredients, lower);
    ScorePositive(recipe, detected, lower);
    var x :| x in SharedNames(recipe, detected, lower);
    var names := Lowered(recipe.ingredients, lower);
    var i :| 0 <= i < |names| && names[i] == x;
    var j :| 0 <= j < |detected| && detected[j] == x;
    assert lower(recipe.ingredients[i]) == lower(ingredients[j]);
  }

  /** Lines 28-33: the entry for a recipe, `steps` defaulting to "". */
  function ToMatch(recipe: CatalogueRecipe, score: real): (m: Match)
    ensures m.name == recipe.name && m.ingredients == recipe.ingredients && m.score == score
    ensures m.steps == (if recipe.steps.Some? then recipe.steps.value else Str(""))
  {
    Match(recipe.name, score, recipe.ingredients, recipe.steps.GetOr(Str("")))
  }

  /** Lines 18-33: in catalogue order, the entry of every recipe with a
      positive score. */
  function Scored(catalogue: seq<CatalogueRecipe>, detected: seq<string>, lower: string -> string): (r: seq<Match>)
    ensures |r| <= |catalogue|
    ensures forall i :: 0 <= i < |r| ==> 0.0 < r[i].score <= 1.0
  {
    if catalogue == [] then []
    else
      var recipe := catalogue[|catalogue| - 1];
      var score := Score(recipe, detected, lower);
      Scored(catalogue[..|catalogue| - 1], detected, lower) + (if score > 0.0 then [ToMatch(recipe, score)] else [])
  }

  /** Scoring keeps catalogue order: it distributes over concatenation, so
      each recipe's entry (if any) sits where the recipe sits. */
  lemma {:induction false} ScoredAppend(a: seq<CatalogueRecipe>, b: seq<CatalogueRecipe>, detected: seq<string>, lower: string -> string)
    ensures Scored(a + b, detected, lower) == Scored(a, detected, lower) + Scored(b, detected, lower)
  {
    if b == [] {
      assert a + b == a;
    } else {
      var init, last := b[..|b| - 1], b[|b| - 1];
      assert b == init + [last];
      assert a + b == (a + init) + [last];
      ScoredSnoc(a + init, last, detected, lower);
      ScoredSnoc(init, last, detected, lower);
      ScoredAppend(a, init, detected, lower);
    }
  }

  /** Scoring one more recipe adds its entry, if any, at the end. */
  lemma ScoredSnoc(xs: seq<CatalogueRecipe>, last: CatalogueRecipe, detected: seq<string>, lower: string -> string)
    ensures var score := Score(last, detected, lower);
            Scored(xs + [last], detected, lower)
              == Scored(xs, detected, lower) + (if score > 0.0 then [ToMatch(last, score)] else [])
  {
    var c := xs + [last];
    assert c[..|c| - 1] == xs && c[|c| - 1] == last;
  }

  /** `m` is the entry of `recipe`, with the recipe's own positive score. */
  ghost predicate EntryOf(m: Match, recipe: CatalogueRecipe, detected: seq<string>, lower: string -> string) {
    Score(recipe, detected, lower) > 0.0 && m == ToMatch(recipe, Score(recipe, detected, lower))
  }

  /** `m` is the entry of some catalogue recipe. */
  ghost predicate FromCatalogue(m: Match, catalogue: seq<CatalogueRecipe>, detected: seq<string>, lower: string -> string) {
    exists k :: 0 <= k < |catalogue| && EntryOf(m, catalogue[k], detected, lower)
  }

  lemma FromCatalogueGrows(m: Match, catalogue: seq<CatalogueRecipe>, n: nat, detected: seq<string>, lower: string -> string)
    requires n <= |catalogue| && FromCatalogue(m, catalogue[..n], detected, lower)
    ensures FromCatalogue(m, catalogue, detected, lower)
  {
    var k :| 0 <= k < n && EntryOf(m, catalogue[..n][k], detected, lower);
    assert catalogue[..n][k] == catalogue[k];
  }

  /** Every scored entry is the entry of a catalogue recipe, with that
      recipe's own positive score. */
  lemma {:induction false} ScoredFromCatalogue(catalogue: seq<CatalogueRecipe>, detected: seq<string>, lower: string -> string)
    ensures forall m :: m in Scored(catalogue, detected, lower) ==> FromCatalogue(m, catalogue, detected, lower)
  {
    if catalogue != [] {
      var n := |catalogue| - 1;
      var init := catalogue[..n];
      ScoredFromCatalogue(init, detected, lower);
      var prefix := Scored(init, detected, lower);
      var last := catalogue[n];
      var score := Score(last, detected, lower);
      assert Scored(catalogue, detected, lower) == prefix + (if score > 0.0 then [ToMatch(last, score)] else []);
      forall m | m in Scored(catalogue, detected, lower)
        ensures FromCatalogue(m, catalogue, detected, lower)
      {
        if m in prefix {
          FromCatalogueGrows(m, catalogue, n, detected, lower);
        } else {
          assert EntryOf(m, catalogue[n], detected, lower);
        }
      }
    }
  }

  /** Every recipe with a positive score has its entry among the scored ones. */
  lemma ScoredIncludesEveryMatch(catalogue: seq<CatalogueRecipe>, detected: seq<string>, lower: string -> string)
    ensures forall k :: 0 <= k < |catalogue| && Score(catalogue[k], detected, lower) > 0.0 ==>
              ToMatch(catalogue[k], Score(catalogue[k], detected, lower)) in Scored(catalogue, detected, lower)
  {
    forall k | 0 <= k < |catalogue| && Score(catalogue[k], detected, lower) > 0.0 {
      ScoredIncludesMatch(catalogue, detected, lower, k);
    }
  }

  lemma {:induction false} ScoredIncludesMatch(catalogue: seq<CatalogueRecipe>, detected: seq<string>, lower: string -> string, k: nat)
    requires k < |catalogue| && Score(catalogue[k], detected, lower) > 0.0
    ensures ToMatch(catalogue[k], Score(catalogue[k], detected, lower)) in Scored(catalogue, detected, lower)
  {
    var n := |catalogue| - 1;
    var init, recipe := catalogue[..n], catalogue[k];
    var m := ToMatch(recipe, Score(recipe, detected, lower));
    var score := Score(catalogue[n], detected, lower);
    var tail := if score > 0.0 then [ToMatch(catalogue[n], score)] else [];
    assert Scored(catalogue, detected, lower) == Scored(init, detected, lower) + tail;
    if k < n {
      assert recipe == init[k];
      ScoredIncludesMatch(init, detected, lower, k);
      assert m in Scored(init, detected, lower);
    } else {
      assert tail == [m];
    }
  }

  // ---------------------------------------------------------------------
  // sorted(..., key=match_score, reverse=True)

  ghost predicate SortedDesc(s: seq<Match>) {
    forall i, j :: 0 <= i < j < |s| ==> s[i].score >= s[j].score
  }

  /** The entries of `s` whose score is `k`, in order. */
  function WithScore(s: seq<Match>, k: real): seq<Match> {
    if s == [] then []
    else (if s[0].score == k then [s[0]] else []) + WithScore(s[1..], k)
  }

  lemma {:induction false} WithScoreAppend(a: seq<Match>, b: seq<Match>, k: real)
    ensures WithScore(a + b, k) == WithScore(a, k) + WithScore(b, k)
  {
    if a == [] {
      assert a + b == b;
    } else {
      var c, head := a + b, if a[0].score == k then [a[0]] else [];
      assert c[0] == a[0] && c[1..] == a[1..] + b;
      WithScoreAppend(a[1..], b, k);
      calc {
        WithScore(c, k);
        head + WithScore(a[1..] + b, k);
        head + (WithScore(a[1..], k) + WithScore(b, k));
        (head + WithScore(a[1..], k)) + WithScore(b, k);
      }
    }
  }

  lemma {:induction false} WithScoreNone(s: seq<Match>, k: real)
    requires forall i :: 0 <= i < |s| ==> s[i].score != k
    ensures WithScore(s, k) == []
  {
    if s != [] {
      WithScoreNone(s[1..], k);
    }
  }

  lemma WithScoreCons(y: Match, s: seq<Match>, k: real)
    ensures WithScore([y] + s, k) == (if y.score == k then [y] else []) + WithScore(s, k)
  {
    assert ([y] + s)[0] == y && ([y] + s)[1..] == s;
  }

  /** Insert `x` after the leading entries that score at least as much:
      into a list sorted highest first, a later entry lands after its equals. */
  function InsertByScore(x: Match, s: seq<Match>): (r: seq<Match>)
    ensures |r| == |s| + 1
    ensures forall m :: m in r <==> m == x || m in s
  {
    if s == [] then [x]
    else if s[0].score >= x.score then [s[0]] + InsertByScore(x, s[1..])
    else [x] + s
  }

  /** Inserting adds exactly `x`. */
  lemma {:induction false} InsertByScorePermutes(x: Match, s: seq<Match>)
    ensures multiset(InsertByScore(x, s)) == multiset(s) + multiset{x}
  {
    if s != [] && s[0].score >= x.score {
      InsertByScorePermutes(x, s[1..]);
      assert s == [s[0]] + s[1..];
    }
  }

  /** A bound on every score, `x`'s included, bounds every score after
      inserting `x`. */
  lemma {:induction false} InsertByScoreBounded(x: Match, s: seq<Match>, bound: real)
    requires x.score <= bound && forall i :: 0 <= i < |s| ==> s[i].score <= bound
    ensures forall i :: 0 <= i < |InsertByScore(x, s)| ==> InsertByScore(x, s)[i].score <= bound
  {
    if s != [] && s[0].score >= x.score {
      InsertByScoreBounded(x, s[1..], bound);
    }
  }

  /** Inserting into a sorted list keeps it sorted. */
  lemma {:induction false} InsertByScoreSorted(x: Match, s: seq<Match>)
    requires SortedDesc(s)
    ensures SortedDesc(InsertByScore(x, s))
  {
    if s != [] && s[0].score >= x.score {
      var rest := s[1..];
      InsertByScoreSorted(x, rest);
      InsertByScoreBounded(x, rest, s[0].score);
      var inserted := InsertByScore(x, rest);
      var r := [s[0]] + inserted;
      forall i, j | 0 <= i < j < |r| ensures r[i].score >= r[j].score {
        assert r[j] == inserted[j - 1];
        if i > 0 {
          assert r[i] == inserted[i - 1];
        }
      }
    }
  }

  lemma SortedDescTail(s: seq<Match>)
    requires s != [] && SortedDesc(s)
    ensures SortedDesc(s[1..])
  {
    var rest := s[1..];
    forall i, j | 0 <= i < j < |rest| ensures rest[i].score >= rest[j].score {
      assert rest[i] == s[i + 1] && rest[j] == s[j + 1];
    }
  }

  /** Inserting into a sorted list puts `x` after every entry of its own score. */
  lemma {:induction false} InsertByScoreStable(x: Match, s: seq<Match>, k: real)
    requires SortedDesc(s)
    ensures WithScore(InsertByScore(x, s), k) == WithScore(s, k) + (if x.score == k then [x] else [])
  {
    if s == [] {
      WithScoreCons(x, [], k);
    } else if s[0].score >= x.score {
      var rest, head, tail := s[1..], if s[0].score == k then [s[0]] else [], if x.score == k then [x] else [];
      SortedDescTail(s);
      InsertByScoreStable(x, rest, k);
      assert s == [s[0]] + rest;
      assert InsertByScore(x, s) == [s[0]] + InsertByScore(x, rest);
      WithScoreCons(s[0], InsertByScore(x, rest), k);
      WithScoreCons(s[0], rest, k);
      calc {
        WithScore(InsertByScore(x, s), k);
        head + WithScore(InsertByScore(x, rest), k);
        head + (WithScore(rest, k) + tail);
        (head + WithScore(rest, k)) + tail;
      }
    } else {
      WithScoreCons(x, s, k);
      if x.score == k {
        forall i | 0 <= i < |s| ensures s[i].score != k {
          assert s[i].score <= s[0].score;
        }
        WithScoreNone(s, k);
      }
    }
  }

  /** Python's stable sort on the score, highest first. */
  function SortByScore(xs: seq<Match>): (r: seq<Match>)
    ensures |r| == |xs|
    ensures forall m :: m in r <==> m in xs
  {
    if xs == [] then []
    else InsertByScore(xs[|xs| - 1], SortByScore(xs[..|xs| - 1]))
  }

  /** The sorted list is ordered highest first and holds exactly the entries. */
  lemma {:induction false} SortByScoreSorted(xs: seq<Match>)
    ensures SortedDesc(SortByScore(xs))
    ensures multiset(SortByScore(xs)) == multiset(xs)
  {
    if xs != [] {
      var init := xs[..|xs| - 1];
      assert xs == init + [xs[|xs| - 1]];
      SortByScoreSorted(init);
      InsertByScoreSorted(xs[|xs| - 1], SortByScore(init));
      InsertByScorePermutes(xs[|xs| - 1], SortByScore(init));
    }
  }

  /** Sorting is stable: the entries of any one score keep their order. */
  lemma {:induction false} SortByScoreStable(xs: seq<Match>, k: real)
    ensures WithScore(SortByScore(xs), k) == WithScore(xs, k)
  {
    if xs != [] {
      var init := xs[..|xs| - 1];
      assert xs == init + [xs[|xs| - 1]];
      SortByScoreStable(init, k);
      SortByScoreSorted(init);
      InsertByScoreStable(xs[|xs| - 1], SortByScore(init), k);
      WithScoreAppend(init, [xs[|xs| - 1]], k);
      WithScoreCons(xs[|xs| - 1], [], k);
    }
  }

  /** Line 40: the first three of the sorted entries, or all when fewer. */
  function TopMatches(xs: seq<Match>): (r: seq<Match>)
    ensures |r| == Min(TopCount, |xs|)
    ensures r == SortByScore(xs)[..|r|]
    ensures forall m :: m in r ==> m in xs
  {
    var sorted := SortByScore(xs);
    sorted[..Min(TopCount, |sorted|)]
  }

  /** The top list holds min(3, n) of the entries, highest score first, and
      nothing that was not an entry. */
  lemma TopMatchesShape(xs: seq<Match>)
    ensures var top := TopMatches(xs);
            && |top| == Min(TopCount, |xs|)
            && SortedDesc(top)
            && forall m :: m in top ==> m in xs
  {
    SortByScoreSorted(xs);
    var sorted := SortByScore(xs);
    forall m | m in TopMatches(xs) ensures m in xs {
      assert m in sorted;
      assert m in multiset(sorted);
    }
  }

  /** Every entry left out of the top list scores no more than the last one kept. */
  lemma TopMatchesAreBest(xs: seq<Match>)
    requires xs != []
    ensures var top := TopMatches(xs);
            forall m :: m in xs ==> m in top || m.score <= top[|top| - 1].score
  {
    SortByScoreSorted(xs);
    var sorted := SortByScore(xs);
    var top := TopMatches(xs);
    forall m | m in xs ensures m in top || m.score <= top[|top| - 1].score {
      assert m in multiset(xs);
      assert m in multiset(sorted);
      var p :| 0 <= p < |sorted| && sorted[p] == m;
      if p >= |top| {
        assert sorted[|top| - 1] == top[|top| - 1];
      }
    }
  }

  /** Among entries of equal score, the kept ones are the earliest, in their
      catalogue order. */
  lemma TopMatchesKeepTieOrder(xs: seq<Match>, k: real)
    ensures WithScore(TopMatches(xs), k) <= WithScore(xs, k)
  {
    var sorted := SortByScore(xs);
    var top := TopMatches(xs);
    assert sorted == top + sorted[|top|..];
    WithScoreAppend(top, sorted[|top|..], k);
    SortByScoreStable(xs, k);
  }

  /** Each recommended entry is a catalogue recipe's, with its positive
      score in (0, 1]. */
  lemma TopMatchesFromCatalogue(catalogue: seq<CatalogueRecipe>, detected: seq<string>, lower: string -> string)
    ensures forall m :: m in TopMatches(Scored(catalogue, detected, lower)) ==>
              0.0 < m.score <= 1.0 && FromCatalogue(m, catalogue, detected, lower)
  {
    var matched := Scored(catalogue, detected, lower);
    TopMatchesShape(matched);
    ScoredFromCatalogue(catalogue, detected, lower);
    forall m | m in TopMatches(matched)
      ensures 0.0 < m.score <= 1.0
    {
      var i :| 0 <= i < |matched| && matched[i] == m;
    }
  }

  /** `recommend_recipe(ingredients)` against `catalogue`. */
  method RecommendRecipe(ingredients: seq<string>, catalogue: seq<CatalogueRecipe>, lower: string -> string)
    returns (r: Recommendation)
    ensures ingredients == [] ==> r == Message(NoIngredientsMessage)
    ensures ingredients != [] ==>
              var matched := Scored(catalogue, Lowered(ingredients, lower), lower);
              r == if matched == [] then Message(NoMatchMessage) else Recipes(TopMatches(matched))
    ensures r.Recipes? ==> 1 <= |r.list| <= TopCount && SortedDesc(r.list)
  {
    if ingredients == [] {
      return Message(NoIngredientsMessage);
    }
    var detected := Lowered(ingredients, lower);
    var matched: seq<Match> := [];
    for k := 0 to |catalogue|
      invariant matched == Scored(catalogue[..k], detected, lower)
    {
      var recipe := catalogue[k];
      var score := Score(recipe, detected, lower);
      if score > 0.0 {
        matched := matched + [ToMatch(recipe, score)];
      }
      assert catalogue[..k + 1][..k] == catalogue[..k];
    }
    assert catalogue[..|catalogue|] == catalogue;
    if matched == [] {
      return Message(NoMatchMessage);
    }
    TopMatchesShape(matched);
    r := Recipes(TopMatches(matched));
  }
}

=== FILE: wrappers.dfy ===
/** The usual optional value, used for partial operations (a parse that may
    fail, a property read that may throw). */
module Wrappers {

  datatype Option<+T> = None | Some(value: T) {

    /** The value, or `default` when there is none. */
    function GetOr(default: T): T {
      match this
      case Some(v) => v
      case None => default
    }
  }
}
